=== FILE: README.md ===
# GEO product-page analyser: a Dafny model of its core

The analyser takes a single product page and reports how ready it is to be
read by generative search engines (GEO, "generative engine optimisation").
Three layers of it are pure and deterministic, and those are what this
project models:

- **The crawler's extraction post-processing** (`ProductCrawler`, in
  `project/crawler.py`). Each extractor is modelled over what the HTML
  parser already delivers:
  - JSON-LD blocks as JSON values;
  - heading elements with their level and text;
  - list blocks with their item texts;
  - table rows as cell texts;
  - anchors with their resolved URL.

  On top of that it models:
  - the product record folded from the JSON-LD;
  - the regex price fallback;
  - heading, feature, specification and link extraction;
  - the choice and normalisation of the page's clean text;
  - the glue in `build`: the early error record, the fallback price and the page type.
- **The scoring engine** (`AIScoringEngine`, in `project/scoring.py`). It has five rubrics:
  - schema completeness;
  - entity clarity;
  - content depth;
  - trust signals;
  - AI extractability.

  Each rubric returns a breakdown of named points. After the rubrics come the penalties, the aggregate `final = max(0, raw + penalties)` out of 100, and a five-tier readiness band.
- **The LLM context builder** (`LLMContextBuilder`, in `project/llm_context.py`):
  - the weak areas, which are the breakdown keys that earned 0;
  - the priority order, a stable ascending sort of the five section scores;
  - the bounded content excerpt;
  - the record `build_context` assembles.

Modules follow the source's structure.
- Shared modules:
  - `Wrappers` holds `Option`/`Result`.
  - `JsonValue` holds JSON values, Python truthiness and `dict.get`.
  - `Text` holds `str.split`, `" ".join`, whitespace collapsing, `strip`, slicing and `rfind`.
  - `Seqs` holds first-seen de-duplication.
- One module per extractor: `ProductSchema`, `PriceFallback`, `Headings`, `Features`, `Specifications`, `Links` and `CleanText`.
- `Page` is the snapshot `build` returns.
- `Scoring` and `LlmContext` are the other two layers.
- `Pipeline` feeds a crawled snapshot to the scoring engine. It proves what that combination can and cannot reach.

Some modelling choices:
- A Python dict whose key order matters is modelled as a sequence of entries. Breakdowns, specifications and weak areas are of this kind.
- Integers are unbounded, as in Python.
- The readiness percentage is an exact `real`.
- `score_entity_clarity` calls `.split()` on the product name. It raises when the name is truthy but not a string, so that case is modelled as an error result. `compute_score` propagates it.

The fallback price pattern on `project/crawler.py:90` makes the currency
group mandatory, so a bare number in the text is never taken as a price.

## Model

| member | source | states |
|---|---|---|
| Text.Words | project/scoring.py:63 | `str.split()`: every word is non-empty and holds no whitespace |
| Text.WordsOfJoin | project/crawler.py:252 | joining words with single spaces and splitting again gives back the same words |
| Text.CollapseKeepsWords | project/crawler.py:252 | `" ".join(t.split())` keeps exactly the words of `t`, in order |
| Text.CollapseIsSingleSpaced | project/crawler.py:252 | the collapsed text has no leading, trailing or doubled spaces and no other whitespace |
| Text.CollapseIdempotent | project/crawler.py:252 | collapsing an already collapsed text changes nothing |
| Text.SubRunsStripIsCollapse | project/llm_context.py:41 | `re.sub(r"\s+", " ", t).strip()` gives the same string as `" ".join(t.split())` |
| Text.StripLeft | project/llm_context.py:41 | left strip removes exactly the leading whitespace, and leaves a suffix that starts with a non-space |
| Text.StripRight | project/llm_context.py:41 | right strip removes exactly the trailing whitespace, and leaves a prefix that ends with a non-space |
| Text.PyPrefix | project/llm_context.py:43 | Python's `s[:n]` is a prefix of length `min(n, len)`; a negative `n` counts from the end |
| Text.LastIndexOf | project/llm_context.py:62 | `rfind` is -1 exactly when the character is absent; otherwise it finds the character, and no later position holds it |
| Text.IntToString | project/crawler.py:259 | `str(n)` is the canonical decimal numeral: its digits read back as the magnitude of `n`, a '-' precedes a negative number, and there is no leading zero except in "0" |
| Seqs.Dedup | project/crawler.py:126-131 | the seen-set loop keeps each element once, keeps every element present, and drops nothing new |
| Seqs.DedupFirstSeenOrder | project/crawler.py:126-131 | elements come out in the order of their first occurrence in the input |
| ProductSchema.Apply | project/crawler.py:64-84 | a non-Product block leaves the record alone. A Product block always sets name and sku, sets brand only from an object or a string, and sets the offer fields whenever `offers` is a dict. The rating fields are set whenever `aggregateRating` is a dict. A missing key defaults to `{}`, which resets those fields |
| ProductSchema.NonProductBlocksIgnored | project/crawler.py:64-65 | blocks that are not dicts with `@type` "Product" never change the record |
| ProductSchema.NoProductGivesEmpty | project/crawler.py:54-65 | without a Product block the result is the default record |
| ProductSchema.ApplyAllAppend | project/crawler.py:64-85 | folding over two runs of blocks is folding over the first, then the second |
| ProductSchema.LastProductWins | project/crawler.py:64-86 | the result is the last Product block applied over the earlier ones; name and sku come from the last Product block |
| PriceFallback.MatchAtSound | project/crawler.py:90 | a match found at a position is a match of the pattern `(₹\|$\|€\|£)\s?\d{1,3}(?:,\d{3})*(?:\.\d+)?` |
| PriceFallback.MatchAtLongest | project/crawler.py:90 | no match of the pattern at that position is longer than the one found (greedy) |
| PriceFallback.MatchAtCorrect | project/crawler.py:90 | the matcher at one position finds the longest match, and reports none exactly when there is none |
| PriceFallback.SearchFrom | project/crawler.py:92 | `re.search` finds the leftmost starting position that matches, and nothing matches before it |
| PriceFallback.ExtractPriceFallback | project/crawler.py:88-95 | None exactly when no position of the text matches. Otherwise it returns the leftmost-longest matched substring, which starts with ₹, $, € or £ |
| PriceFallback.FallbackIsLeftmostLongest | project/crawler.py:92-94 | any leftmost-longest match is exactly what the fallback returns |
| PriceFallback.RupeeExample | project/crawler.py:88-95 | in "Now only ₹2,499.00 — limited stock" the fallback finds "₹2,499.00" |
| Headings.Tag | project/crawler.py:103 | the tag name is "h" followed by the level's digit |
| Headings.ExtractHeadings | project/crawler.py:98-109 | the output is sorted by level and holds exactly the document's headings. At each level they keep document order, so the output is grouped by level, not in document order |
| Features.KeptItems | project/crawler.py:117-122 | only items longer than 10 characters and not in the stop list are kept, each taken from the list |
| Features.KeptItemsCount | project/crawler.py:118-122 | every item that passes the filter is kept as often as it occurs in the list, and nothing else is kept |
| Features.KeptItemsAppend | project/crawler.py:118-122 | filtering two runs of items one after the other keeps the first run's items before the second's, so list order is kept |
| Features.KeptItemsOne | project/crawler.py:121-122 | a single item is kept exactly when it passes the filter |
| Features.StopListIsRedundant | project/crawler.py:121 | the stop-list words are all short, so the filter is the length test alone |
| Features.CandidateOrigin | project/crawler.py:113-124 | every candidate is longer than 10 characters and comes from a list that kept 2 to 20 items |
| Features.KeptItemsOf | project/crawler.py:117-122 | the item loop computes the filtered items |
| Features.CollectCandidates | project/crawler.py:112-124 | the list loop gathers the kept items of every list that kept 2 to 20 of them |
| Features.DedupInOrder | project/crawler.py:126-131 | the seen-set loop computes the first-seen de-duplication |
| Features.Take | project/crawler.py:132 | `xs[:n]` is the prefix of length `min(n, len)` |
| Features.ExtractFeatures | project/crawler.py:111-132 | no duplicates and at most 20. Every feature is longer than 10 characters and comes from a contributing list |
| Specifications.RowPairs | project/crawler.py:144-152 | only two-cell rows whose key is 2..100 and value 2..300 characters long are kept |
| Specifications.AllPairs | project/crawler.py:136-152 | every pair taken from any table that has at least two rows meets the length bounds |
| Specifications.FindKey | project/crawler.py:153 | `key in specs`: -1 exactly when the key is absent, otherwise its position |
| Specifications.Grow | project/crawler.py:154-157 | a repeated key becomes a list holding the old values followed by the new one |
| Specifications.Add | project/crawler.py:153-159 | adding a pair adds a key only if it is new, and appends the value to that key's values, all others unchanged |
| Specifications.Accumulate | project/crawler.py:135-160 | the keys are the distinct row keys in first-seen order, and every entry meets the length bounds |
| Specifications.AccumulateValues | project/crawler.py:153-159 | a key's values are all its accepted row values, in row order; none is overwritten |
| Specifications.ExtractSpecifications | project/crawler.py:134-160 | the table loop yields well-formed entries whose keys are the distinct accepted keys in first-seen order |
| Specifications.ExtractSpecificationsValues | project/crawler.py:134-160 | each key holds exactly its accepted values across all tables, in order |
| Specifications.OneIffSingleValue | project/crawler.py:153-159 | a key holds a plain string exactly when it was accepted once, and a list otherwise |
| Links.Side | project/crawler.py:168-198 | every link on the internal side has an internal host, and every link on the external side an external one |
| Links.FirstPerUrlUrls | project/crawler.py:192-198 | the seen-set per side keeps each URL once, in first-seen order |
| Links.FirstPerUrlKeepsFirst | project/crawler.py:192-198 | every kept link is the first anchor with its URL, so it carries that anchor's text |
| Links.ExtractLinks | project/crawler.py:162-200 | the anchor loop computes the per-side first-per-URL lists of the eligible anchors |
| Links.SideMembership | project/crawler.py:168-198 | a URL is on a side exactly when some anchor resolves to it and is not skipped. Skipped anchors are `#`, `javascript`, `mailto:`, `tel:` or non-http, and the anchor's host must classify to that side |
| Links.ExtractLinksProperties | project/crawler.py:162-200 | neither list repeats a URL, and each list holds exactly the URLs that resolve to its side |
| Links.LinksDisjoint | project/crawler.py:191-198 | no URL is both internal and external |
| CleanText.ExtractCleanText | project/crawler.py:247-253 | the readable text is chosen iff 5·len(readable) > 3·len(raw). The result is single-spaced and already normal, and keeps the chosen text's words. Its word count is its number of words |
| CleanText.RatioIsIntegerComparison | project/crawler.py:248 | `len(readable) > len(raw) * 0.6` on exact reals is the integer comparison 5·len(readable) > 3·len(raw) |
| Page.WithFallbackPrice | project/crawler.py:274-276 | a truthy price is kept. Otherwise the fallback's match, or None, replaces it, and nothing else changes. A price still missing means the text has no amount. A fallback price starts with a currency symbol |
| Page.Build | project/crawler.py:255-305 | a non-200 status gives the error record, and only then. Otherwise each part of the snapshot is what its extractor yields, and the page type is "PRODUCT" iff the final name is truthy |
| Scoring.SchemaEarned | project/scoring.py:22-42 | what each schema item tests: the five product fields and the price format. It also records whether some schema block is a dict and whether one has `@type` "Product" |
| Scoring.ScoreSchema | project/scoring.py:17-45 | the eight keys in order, each 0 or its weight. A key earns its weight iff its test holds. The score is the unclamped sum and lies within 0..20, so `min` never binds |
| Scoring.NumPriceFormat | project/scoring.py:29-30 | an integer price gets the format bonus exactly when it is non-negative |
| Scoring.SymbolPriceHasNoBonus | project/scoring.py:29-33 | a price text starting with a non-digit never gets the format bonus |
| Scoring.EntityBase | project/scoring.py:54-58 | the five entity keys, each earning its weight iff the product field is truthy; they add up to at most 13 |
| Scoring.NameQuality | project/scoring.py:61-69 | the name quality is 2 for at least four words, 1 for two or three, and 0 otherwise |
| Scoring.NameQualityMonotone | project/scoring.py:63-69 | more words never lower the name quality |
| Scoring.ScoreEntity | project/scoring.py:50-71 | an error iff the name is truthy but not a string. Otherwise it gives the five keys, plus `name_quality` exactly when the name is truthy. Their points come from the field tests and the name's word count. The score is the sum, within 0..15 |
| Scoring.ContentTiersMonotone | project/scoring.py:83-108 | raising the word, heading, feature or spec count never lowers that tier's points |
| Scoring.ContentPoints | project/scoring.py:80-119 | each content item lies between 0 and its tier maximum, and takes the tier's value |
| Scoring.ScoreContent | project/scoring.py:76-122 | the six content keys with their tier points; the score is the sum, within 0..25 |
| Scoring.ContentScoreMonotone | project/scoring.py:83-122 | larger counts with the same images and FAQ never give a lower content score |
| Scoring.TrustTable | project/scoring.py:131-139 | the weighted signal table holds seven signals, none of them `reviews_count`, so that branch is unreachable |
| Scoring.EntriesAreAwards | project/scoring.py:141-154 | over a table without `reviews_count`, every entry is 0 or its weight, earned iff the signal is truthy |
| Scoring.TrustRubric | project/scoring.py:127-157 | exactly the seven weighted keys, each 0 or its weight, earned iff the signal is truthy. The score is the sum, at most 16 of 20 |
| Scoring.ScoreTrust | project/scoring.py:141-157 | the loop over the weighted signals builds the trust rubric |
| Scoring.ScoreExtractability | project/scoring.py:162-190 | the seven extractability keys score schema presence, heading hierarchy, spec-table tier and the four meta fields. The score is the sum, within 0..20 |
| Scoring.SelectEntries | project/scoring.py:195-211 | the penalties kept are exactly the table rows whose condition holds, each with its own points, and no key appears twice, as in a dict |
| Scoring.SelectTotal | project/scoring.py:195-211 | the total of the kept penalties is the sum of the points of the rows whose condition holds |
| Scoring.PenaltyTotal | project/scoring.py:195-211 | over the penalty table that sum is -5, -10, -5 and -8 for the conditions that hold |
| Scoring.Penalties | project/scoring.py:195-211 | `missing_price` -5 is present iff the price is falsy, `missing_product_name` -10 iff the name is falsy, `no_schema_markup` -5 iff there is no schema, and `thin_content` -8 iff there are fewer than 100 words. No other key appears and none appears twice. The total (`penalty_total` at scoring.py:237) is the sum of exactly those amounts, so it lies in -28..0 |
| Scoring.ReadinessBand | project/scoring.py:216-222 | a top-down step function: Excellent from 85, Good from 70, Fair from 50, Poor from 30, Critical below; each bound inclusive |
| Scoring.BandMonotone | project/scoring.py:216-222 | a higher percentage never gives a worse band |
| Scoring.PercentOfHundred | project/scoring.py:238-241 | with a maximum of 100 the percentage equals the final score |
| Scoring.FinalBounds | project/scoring.py:240 | the final score `max(0, raw + penalties)` lies within 0..96 |
| Scoring.Aggregate | project/scoring.py:235-268 | max_possible is 100 and raw is the sum of the section scores. penalty_total is the sum of the penalties and final is `max(0, raw + penalty_total)` ≤ 96. The percentage is the final score and the band is read from it |
| Scoring.ComputeScore | project/scoring.py:227-268 | fails exactly when entity scoring fails; otherwise the report is consistent in every field |
| Scoring.ComputeScoreSections | project/scoring.py:227-268 | each section score and breakdown in the report is the one its rubric computes, and the penalties are the penalty rubric's |
| LlmContext.ZeroKeys | project/llm_context.py:18 | a key is listed exactly when its value is 0, and the list is non-empty iff some value is 0 |
| LlmContext.ZeroKeysAppend | project/llm_context.py:18 | zero keys keep breakdown order |
| LlmContext.WeakAreas | project/llm_context.py:14-21 | every weak area lists at least one key |
| LlmContext.WeakAreasMembership | project/llm_context.py:17-20 | a section is a weak area, with exactly its zero-valued keys, iff its breakdown has a 0 |
| LlmContext.WeakAreasListsZero | project/llm_context.py:17-20 | a section with a 0 value appears among the weak areas with its zero keys |
| LlmContext.WeakAreaOrigin | project/llm_context.py:17-20 | every weak area is some section with exactly its zero keys |
| LlmContext.WeakAreasAppend | project/llm_context.py:17-20 | weak areas keep section order |
| LlmContext.Insert | project/llm_context.py:33 | insertion adds exactly one element |
| LlmContext.Sort | project/llm_context.py:33 | the sort is a permutation of its input |
| LlmContext.InsertOrdered | project/llm_context.py:33 | inserting a larger index into a stably ordered list keeps it stably ordered |
| LlmContext.SortOrdered | project/llm_context.py:33 | sorting section indices gives non-decreasing scores, and equal scores keep index order |
| LlmContext.OrderedUnique | project/llm_context.py:33 | only one arrangement of the same indices is ordered by score with ties by index |
| LlmContext.SameFirst | project/llm_context.py:33 | two such arrangements start with the same index |
| LlmContext.FirstComesFirst | project/llm_context.py:33 | the head of an ordered list comes before every other member |
| LlmContext.PriorityOrder | project/llm_context.py:26-33 | the order is a permutation of the five sections, sorted by score, with ties in section order |
| LlmContext.PriorityOrderUnique | project/llm_context.py:26-33 | any permutation sorted that way is the priority order |
| LlmContext.OrderIsPermutation | project/llm_context.py:26-33 | the order lists every section exactly once |
| LlmContext.NamesOf | project/llm_context.py:26-33 | section indices are mapped to their names |
| LlmContext.NamesOfPermutation | project/llm_context.py:26-33 | the names are the five section names, each once. Each name's position in the fixed order is its index, and earlier names have a lower score or an equal score and an earlier section |
| LlmContext.SectionNamesDistinct | project/llm_context.py:26-32 | the five section names are distinct |
| LlmContext.Priority | project/llm_context.py:25-33 | `get_priority` is a permutation of schema, entity, content, trust and extractability. It is sorted non-decreasingly by score, and equal scores keep that fixed order |
| LlmContext.SpecLines | project/llm_context.py:52-55 | one `key: value` line per specification, in order |
| LlmContext.FeatureBlockCap | project/llm_context.py:46-47 | only the first six features reach the feature block; features past the sixth never change it |
| LlmContext.SpecBlockCap | project/llm_context.py:50-55 | only the first five specifications reach the specification block; entries past the fifth never change it |
| LlmContext.CleanBlock | project/llm_context.py:40-43 | the clean-text block is the first 600 characters of the collapsed text, and is empty iff the text has no words |
| LlmContext.ExcerptSections | project/llm_context.py:38-58 | the clean block comes first when the text has words. The feature block is present iff there are features, right after the clean block. The spec block is present iff there are specs, and comes last. Every section is non-empty |
| LlmContext.Trim | project/llm_context.py:60-66 | the result is a prefix, at most `limit` long when `limit ≥ 0`, and unchanged when the text fits. If the cut holds a '.', the result ends at its last '.'; otherwise it is the hard cut |
| LlmContext.TrimIdempotent | project/llm_context.py:60-66 | trimming a trimmed excerpt changes nothing |
| LlmContext.Excerpt | project/llm_context.py:37-67 | the excerpt is a prefix of the joined sections, at most `limit` long, and the whole when it fits |
| LlmContext.BuildContext | project/llm_context.py:71-119 | the priority order is the report's priority list and the weak areas are those of its breakdowns. The excerpt is the clean text, features and specifications cut to 1200 characters. Maximum, percentage, band and penalties are the report's own. URL, title, description and product fields are copied from the page. The metrics count what the snapshot holds |
| Pipeline.HeadingsJson | project/crawler.py:105-108 | each heading becomes one `{"level", "text"}` record, in order |
| Pipeline.ProductMapKeys | project/crawler.py:54-63 | the crawler's product dict has a name and never a category or gtin |
| Pipeline.EntityCeiling | project/scoring.py:54-71 | without category and gtin the entity score is at most 11 |
| Pipeline.EntityItemsBound | project/scoring.py:54-69 | entity points without category and gtin add up to at most 11 |
| Pipeline.ContentCeiling | project/scoring.py:111-122 | without images and an FAQ the content score is at most 21 |
| Pipeline.ExtractabilityCeiling | project/scoring.py:180-190 | without metadata the extractability score is at most 10 |
| Pipeline.CrawlIsShaped | project/crawler.py:279-305 | a crawled snapshot has no category, gtin, images, FAQ or metadata |
| Pipeline.ReportCeiling | project/scoring.py:227-268 | an input with that shape scores at most 78 |
| Pipeline.BelowTopBand | project/scoring.py:218 | below 85 percent the band is never "Excellent" |
| Pipeline.CrawledScoreFails | project/scoring.py:61-63 | scoring a crawled page fails exactly when its product name is truthy but not a string |
| Pipeline.CrawledScoreCeiling | project/scoring.py:216-268 | a crawled page scores at most 78 of 100 and never reaches the top band |
| Pipeline.FallbackPriceHasNoBonus | project/crawler.py:274-276 | a price found by the text fallback never earns the schema price-format bonus |

## Left out

- The HTTP fetch, its timing and `requests` (`project/crawler.py:18-30`) are network I/O and wall-clock time. The response is an input of `Page.Build`, holding the status, final URL and load time.
- HTML parsing, `find_parent` ancestry checks, `extruct` and `readability` are foreign libraries. What they yield is an input, `Page.ParsedPage`:
  - the JSON-LD blocks;
  - the headings with level and stripped text;
  - every `ul` block with its item texts, each with a flag saying whether `find_parent` found a nav, footer or header ancestor; the model skips the flagged blocks itself;
  - every table with its rows, each with a flag saying whether `find_parent` found a nav or footer ancestor; the model skips the flagged tables itself;
  - the anchors with their resolved URL;
  - the raw and readable texts.
- `extract_metadata` (title, description, canonical) is also given as an input. It is a lookup in the parsed document.
- `urljoin`/`urlparse` internals: an anchor carries its resolved URL as a record with a scheme and a network location.
- Links.FirstPerUrl: the source's seen-sets compare resolved URL strings, while the model compares `Url` records (scheme, network location, rest). URL equality is therefore record equality, which agrees with string equality only when that split of a URL string is one-to-one.
- `detect_trust_signal` is keyword search over the page text plus the phone and e-mail regexes. Its result is an input map of booleans.
- The crawl timestamp is `datetime.utcnow()`, and it is a parameter.
- Floats are not modelled:
  - The percentage is `final / 100 * 100` as an exact real. Python's `round(…, 2)` of the float quotient is not modelled, because the two agree for integer finals up to 100.
  - The 60 % ratio is an exact rational comparison.
  - JSON numbers are integers.
- Unicode details are not modelled:
  - `\d` is the ASCII digits.
  - Whitespace is Python's `str.isspace` set.
  - The feature stop list compares against ASCII lower case.
- LlmContext.SpecLine: a specification holding several values is printed with Python's list `repr`. That formatting is the parameter `listRepr`, not a definition.
- LlmContext.BuildContext: the unwrapping of an `ai_visibility_score` wrapper around the score dict is not modelled. The context is built from the report itself, with typed fields instead of `dict.get` defaults.
- Scoring: the engine's dict reads with defaults are replaced by a typed `ScoreInput`, so missing sections in a hand-written input are not modelled. Those sections are the content counts and the headings list. `Pipeline.ScoreInputOf` shows the values a crawl gives.
- `project/main.py` (FastAPI routing, file writing, JSON dumps, time-based file names) is not part of this model.

=== FILE: clean_text.dfy ===
/** The selection and normalisation part of `ProductCrawler.extract_clean_text`.
    Producing the two candidate texts (the page text with scripts and styles
    removed, and the text of the readability summary) is HTML work; both
    arrive here as strings. */
module CleanText {
  import opened Text

  /** `len(readable_text) > len(raw_text) * 0.6`, stated on integers.
      Both lengths are whole numbers, so `r > 0.6 * n` holds exactly when
      `5 * r > 3 * n`. */
  predicate PrefersReadable(raw: string, readable: string)
  {
    5 * |readable| > 3 * |raw|
  }

  datatype CleanResult = CleanResult(text: string, wordCount: nat)

  /** `extract_clean_text()` after the two candidates are known: pick the
      readable text when it keeps more than 60% of the raw length, then
      collapse whitespace. The text is single-spaced, keeps exactly the
      chosen candidate's words, is already in normal form, and its word
      count is the number of words of the chosen candidate. */
  function ExtractCleanText(raw: string, readable: string): (r: CleanResult)
    ensures var chosen := if PrefersReadable(raw, readable) then readable else raw;
      && Words(r.text) == Words(chosen)
      && r.wordCount == |Words(chosen)|
    ensures SingleSpaced(r.text)
    ensures Collapse(r.text) == r.text
    ensures r.wordCount == |Words(r.text)|
  {
    var chosen := if |readable| as real > |raw| as real * 0.6 then readable else raw;
    var text := Collapse(chosen);
    CollapseKeepsWords(chosen);
    CollapseIsSingleSpaced(chosen);
    CollapseIdempotent(chosen);
    CleanResult(text, |Words(text)|)
  }

  /** Choosing by the 60% ratio on exact reals is choosing by the integer
      comparison. */
  lemma RatioIsIntegerComparison(raw: string, readable: string)
    ensures (|readable| as real > |raw| as real * 0.6) <==> PrefersReadable(raw, readable)
  {
  }
}

=== FILE: features.dfy ===
/** Feature-bullet extraction (`ProductCrawler.extract_features`). The
    parsed document is given as its unordered lists in document order, each
    with the stripped texts of its items and whether it sits inside a
    nav, footer or header element. */
module Features {
  import opened Text
  import opened Seqs

  datatype ListBlock = ListBlock(inNavigation: bool, items: seq<string>)

  /** Generic navigation labels the source filters out. */
  const StopWords: seq<string> := ["home", "about", "contact"]

  /** Upper bound on the number of features returned. */
  const MaxFeatures := 20

  /** `len(text) > 10 and not text.lower() in ["home", "about", "contact"]` */
  predicate KeepItem(t: string)
  {
    |t| > 10 && Lower(t) !in StopWords
  }

  /** The kept item texts of one list, in order. */
  function KeptItems(items: seq<string>): (r: seq<string>)
    ensures forall i :: 0 <= i < |r| ==> KeepItem(r[i]) && r[i] in items
  {
    if |items| == 0 then []
    else
      var last := items[|items| - 1];
      KeptItems(items[..|items| - 1]) + (if KeepItem(last) then [last] else [])
  }

  /** Every item that passes the filter is kept, as often as it occurs,
      and nothing else is. */
  lemma {:induction false} KeptItemsCount(items: seq<string>, t: string)
    ensures multiset(KeptItems(items))[t] == if KeepItem(t) then multiset(items)[t] else 0
    decreases |items|
  {
    if |items| > 0 {
      var init := items[..|items| - 1];
      var last := items[|items| - 1];
      assert items == init + [last];
      KeptItemsCount(init, t);
    }
  }

  /** Filtering a concatenation filters each part, so the kept items stay
      in list order; with `KeptItemsOne` this pins the filter down. */
  lemma {:induction false} KeptItemsAppend(a: seq<string>, b: seq<string>)
    ensures KeptItems(a + b) == KeptItems(a) + KeptItems(b)
    decreases |b|
  {
    if |b| == 0 {
      assert a + b == a;
    } else {
      var init := b[..|b| - 1];
      var last := b[|b| - 1];
      var tail := if KeepItem(last) then [last] else [];
      var ab := a + b;
      assert ab[..|ab| - 1] == a + init;
      assert ab[|ab| - 1] == last;
      assert KeptItems(ab) == KeptItems(a + init) + tail;
      assert KeptItems(b) == KeptItems(init) + tail;
      KeptItemsAppend(a, init);
      assert KeptItems(a) + KeptItems(init) + tail == KeptItems(a) + (KeptItems(init) + tail);
    }
  }

  /** A single item is kept exactly when it passes the filter. */
  lemma KeptItemsOne(t: string)
    ensures KeptItems([t]) == if KeepItem(t) then [t] else []
  {
    assert [t][..0] == [];
  }

  /** A list contributes its kept items when it is outside navigation and
      keeps between 2 and 20 of them. */
  predicate Contributes(ul: ListBlock)
  {
    !ul.inNavigation && 2 <= |KeptItems(ul.items)| <= 20
  }

  /** All contributed items, list after list, before de-duplication. */
  function Candidates(lists: seq<ListBlock>): seq<string>
  {
    if |lists| == 0 then []
    else
      var ul := lists[|lists| - 1];
      Candidates(lists[..|lists| - 1]) + (if Contributes(ul) then KeptItems(ul.items) else [])
  }

  /** `xs[:n]` */
  function Take<T>(xs: seq<T>, n: nat): (r: seq<T>)
    ensures |r| == if |xs| < n then |xs| else n
    ensures r == xs[..|r|]
  {
    if |xs| <= n then xs else xs[..n]
  }

  /** The stop-list never removes anything: every stop word is shorter than
      the 11 characters an item needs anyway. */
  lemma StopListIsRedundant(t: string)
    ensures KeepItem(t) <==> |t| > 10
  {
    if |t| > 10 {
      assert |Lower(t)| > 10;
    }
  }

  /** Every candidate is a kept item of a contributing list. */
  lemma {:induction false} CandidateOrigin(lists: seq<ListBlock>, x: string)
    requires x in Candidates(lists)
    ensures |x| > 10
    ensures exists k :: 0 <= k < |lists| && Contributes(lists[k]) && x in lists[k].items
    decreases |lists|
  {
    var n := |lists| - 1;
    if x in Candidates(lists[..n]) {
      CandidateOrigin(lists[..n], x);
      var k :| 0 <= k < n && Contributes(lists[..n][k]) && x in lists[..n][k].items;
      assert lists[k] == lists[..n][k];
    } else {
      assert Contributes(lists[n]) && x in KeptItems(lists[n].items);
    }
  }

  /** The item loop of one list. */
  method KeptItemsOf(items: seq<string>) returns (kept: seq<string>)
    ensures kept == KeptItems(items)
  {
    kept := [];
    var j := 0;
    while j < |items|
      invariant 0 <= j <= |items|
      invariant kept == KeptItems(items[..j])
    {
      var text := items[j];
      if |text| > 10 && Lower(text) !in StopWords {
        kept := kept + [text];
      }
      assert items[..j + 1][..j] == items[..j];
      j := j + 1;
    }
    assert items[..j] == items;
  }

  /** The list loop: every contributing list's kept items, in order. */
  method CollectCandidates(lists: seq<ListBlock>) returns (features: seq<string>)
    ensures features == Candidates(lists)
  {
    features := [];
    var u := 0;
    while u < |lists|
      invariant 0 <= u <= |lists|
      invariant features == Candidates(lists[..u])
    {
      var ul := lists[u];
      if !ul.inNavigation {
        var items := KeptItemsOf(ul.items);
        if 2 <= |items| <= 20 {
          features := features + items;
        }
      }
      assert lists[..u + 1][..u] == lists[..u];
      u := u + 1;
    }
    assert lists[..u] == lists;
  }

  /** The `seen`-set loop: first occurrences in order. */
  method DedupInOrder(features: seq<string>) returns (clean: seq<string>)
    ensures clean == Dedup(features)
  {
    var seen: set<string> := {};
    clean := [];
    var k := 0;
    while k < |features|
      invariant 0 <= k <= |features|
      invariant clean == Dedup(features[..k])
      invariant seen == set x | x in clean
    {
      var f := features[k];
      if f !in seen {
        seen := seen + {f};
        clean := clean + [f];
      }
      assert features[..k + 1][..k] == features[..k];
      k := k + 1;
    }
    assert features[..k] == features;
  }

  /** `extract_features()` */
  method ExtractFeatures(lists: seq<ListBlock>) returns (r: seq<string>)
    ensures r == Take(Dedup(Candidates(lists)), MaxFeatures)
    ensures NoDuplicates(r) && |r| <= MaxFeatures
    ensures forall i :: 0 <= i < |r| ==> |r[i]| > 10
    ensures forall i :: 0 <= i < |r| ==>
      exists k :: 0 <= k < |lists| && Contributes(lists[k]) && r[i] in lists[k].items
  {
    var features := CollectCandidates(lists);
    var clean := DedupInOrder(features);
    r := Take(clean, MaxFeatures);
    assert forall i :: 0 <= i < |r| ==> r[i] == clean[i];
    forall i | 0 <= i < |r|
      ensures |r[i]| > 10
      ensures exists k :: 0 <= k < |lists| && Contributes(lists[k]) && r[i] in lists[k].items
    {
      assert r[i] == clean[i];
      CandidateOrigin(lists, r[i]);
    }
  }
}

=== FILE: headings.dfy ===
/** Heading extraction (`ProductCrawler.extract_headings`). The source walks
    the levels h1..h6 and, for each, every matching element in document
    order, so the output is grouped by level rather than in document order.
    The parsed document is given as its heading elements in document order,
    each with its level and its stripped text. */
module Headings {

  type Level = l: int | 1 <= l <= 6 witness 1

  datatype Heading = Heading(level: Level, text: string)

  /** The tag name the record carries: "h1" .. "h6". */
  function Tag(l: Level): (t: string)
    ensures |t| == 2 && t[0] == 'h' && t[1] == ('0' as int + l) as char
  {
    "h" + [('0' as int + l) as char]
  }

  /** The headings of level `l`, in their original order. */
  function OfLevel(hs: seq<Heading>, l: int): (r: seq<Heading>)
    ensures forall i :: 0 <= i < |r| ==> r[i].level == l
  {
    if |hs| == 0 then []
    else (if hs[0].level == l then [hs[0]] else []) + OfLevel(hs[1..], l)
  }

  /** Levels never decrease along the sequence. */
  predicate LevelSorted(hs: seq<Heading>)
  {
    forall i, j :: 0 <= i < j < |hs| ==> hs[i].level <= hs[j].level
  }

  /** The loop over levels `from` .. 6. */
  function CollectFrom(doc: seq<Heading>, from: int): seq<Heading>
    requires 1 <= from <= 7
    decreases 7 - from
  {
    if from == 7 then [] else OfLevel(doc, from) + CollectFrom(doc, from + 1)
  }

  /** `extract_headings()`: level by level, document order within a level.
      The output is sorted by level, holds exactly the document's headings,
      and at each level keeps them in document order. */
  function ExtractHeadings(doc: seq<Heading>): (r: seq<Heading>)
    ensures LevelSorted(r)
    ensures forall l :: OfLevel(r, l) == OfLevel(doc, l)
    ensures multiset(r) == multiset(doc)
  {
    CollectSorted(doc, 1);
    forall l
      ensures OfLevel(CollectFrom(doc, 1), l) == OfLevel(doc, l)
    {
      CollectOfLevel(doc, 1, l);
      if l < 1 || l > 6 {
        OfLevelOutside(doc, l);
      }
    }
    CollectMultiset(doc, 1);
    AtLeastBounds(doc);
    CollectFrom(doc, 1)
  }

  lemma {:induction false} OfLevelAppend(a: seq<Heading>, b: seq<Heading>, l: int)
    ensures OfLevel(a + b, l) == OfLevel(a, l) + OfLevel(b, l)
    decreases |a|
  {
    if |a| > 0 {
      OfLevelAppend(a[1..], b, l);
      assert (a + b)[0] == a[0];
      assert (a + b)[1..] == a[1..] + b;
      var h := if a[0].level == l then [a[0]] else [];
      assert OfLevel(a + b, l) == h + (OfLevel(a[1..], l) + OfLevel(b, l));
      assert h + (OfLevel(a[1..], l) + OfLevel(b, l)) == (h + OfLevel(a[1..], l)) + OfLevel(b, l);
    } else {
      assert a + b == b;
    }
  }

  lemma {:induction false} OfLevelOfLevel(hs: seq<Heading>, m: int, l: int)
    ensures OfLevel(OfLevel(hs, m), l) == if l == m then OfLevel(hs, m) else []
    decreases |hs|
  {
    if |hs| > 0 {
      OfLevelOfLevel(hs[1..], m, l);
      var head := if hs[0].level == m then [hs[0]] else [];
      OfLevelAppend(head, OfLevel(hs[1..], m), l);
    }
  }

  lemma {:induction false} CollectLevels(doc: seq<Heading>, from: int)
    requires 1 <= from <= 7
    ensures forall i :: 0 <= i < |CollectFrom(doc, from)| ==> CollectFrom(doc, from)[i].level >= from
    decreases 7 - from
  {
    if from < 7 {
      CollectLevels(doc, from + 1);
    }
  }

  lemma {:induction false} CollectSorted(doc: seq<Heading>, from: int)
    requires 1 <= from <= 7
    ensures LevelSorted(CollectFrom(doc, from))
    decreases 7 - from
  {
    if from < 7 {
      CollectSorted(doc, from + 1);
      CollectLevels(doc, from + 1);
      ConcatSorted(OfLevel(doc, from), CollectFrom(doc, from + 1), from);
    }
  }

  /** Headings of one level followed by sorted headings of higher levels
      are sorted. */
  lemma ConcatSorted(a: seq<Heading>, b: seq<Heading>, m: int)
    requires forall i :: 0 <= i < |a| ==> a[i].level == m
    requires forall i :: 0 <= i < |b| ==> b[i].level >= m
    requires LevelSorted(b)
    ensures LevelSorted(a + b)
  {
    var c := a + b;
    forall i, j | 0 <= i < j < |c|
      ensures c[i].level <= c[j].level
    {
      if j < |a| {
        assert c[i] == a[i] && c[j] == a[j];
      } else if i < |a| {
        assert c[i] == a[i] && c[j] == b[j - |a|];
      } else {
        assert c[i] == b[i - |a|] && c[j] == b[j - |a|];
      }
    }
  }

  lemma {:induction false} CollectOfLevel(doc: seq<Heading>, from: int, l: int)
    requires 1 <= from <= 7
    ensures OfLevel(CollectFrom(doc, from), l) == if from <= l <= 6 then OfLevel(doc, l) else []
    decreases 7 - from
  {
    if from < 7 {
      CollectOfLevel(doc, from + 1, l);
      OfLevelAppend(OfLevel(doc, from), CollectFrom(doc, from + 1), l);
      OfLevelOfLevel(doc, from, l);
    }
  }

  /** No heading has a level outside 1..6. */
  lemma {:induction false} OfLevelOutside(hs: seq<Heading>, l: int)
    requires l < 1 || l > 6
    ensures OfLevel(hs, l) == []
    decreases |hs|
  {
    if |hs| > 0 {
      OfLevelOutside(hs[1..], l);
    }
  }

  /** The headings of level `m` or above, in their original order. */
  function AtLeast(hs: seq<Heading>, m: int): seq<Heading>
  {
    if |hs| == 0 then []
    else (if hs[0].level >= m then [hs[0]] else []) + AtLeast(hs[1..], m)
  }

  lemma {:induction false} AtLeastSplit(hs: seq<Heading>, m: int)
    ensures multiset(AtLeast(hs, m)) == multiset(OfLevel(hs, m)) + multiset(AtLeast(hs, m + 1))
    decreases |hs|
  {
    if |hs| > 0 {
      AtLeastSplit(hs[1..], m);
    }
  }

  lemma {:induction false} AtLeastBounds(hs: seq<Heading>)
    ensures AtLeast(hs, 1) == hs
    ensures AtLeast(hs, 7) == []
    decreases |hs|
  {
    if |hs| > 0 {
      AtLeastBounds(hs[1..]);
      assert hs == [hs[0]] + hs[1..];
    }
  }

  lemma {:induction false} CollectMultiset(doc: seq<Heading>, from: int)
    requires 1 <= from <= 7
    ensures multiset(CollectFrom(doc, from)) == multiset(AtLeast(doc, from))
    decreases 7 - from
  {
    if from < 7 {
      CollectMultiset(doc, from + 1);
      AtLeastSplit(doc, from);
    } else {
      AtLeastBounds(doc);
    }
  }
}

=== FILE: json.dfy ===
/** The values an embedded JSON-LD block can hold, with the two Python
    operations the analyser applies to them: truthiness and `dict.get`. */
module JsonValue {

  /** A decoded JSON value. Objects are mappings from keys to values, as a
      Python dict built by the JSON decoder is; numbers are integers. */
  datatype Json =
    | Null
    | Bool(b: bool)
    | Num(n: int)
    | Str(s: string)
    | Arr(items: seq<Json>)
    | Obj(fields: map<string, Json>)

  /** Python truthiness: None, False, 0 and empty containers are false. */
  predicate Truthy(v: Json)
  {
    match v
    case Null => false
    case Bool(b) => b
    case Num(n) => n != 0
    case Str(s) => |s| > 0
    case Arr(items) => |items| > 0
    case Obj(fields) => |fields| > 0
  }

  /** `m.get(key, default)` on a Python dict. */
  function Get(m: map<string, Json>, key: string, default: Json): Json
  {
    if key in m then m[key] else default
  }

  /** `isinstance(v, dict)` */
  predicate IsDict(v: Json)
  {
    v.Obj?
  }
}

=== FILE: links.dfy ===
/** Link extraction (`ProductCrawler.extract_links`). The parsed document is
    given as its `<a href>` elements in document order. Resolving an href
    against the page URL (`urljoin`) and splitting the result (`urlparse`)
    are library calls, so each anchor arrives with its resolved URL already
    split into scheme, network location and the rest. */
module Links {
  import opened Text
  import opened Seqs

  /** A resolved absolute URL, split as `urlparse` splits it. */
  datatype Url = Url(scheme: string, netloc: string, rest: string)

  /** One `<a href>` element: the stripped href, the URL it resolves to
      against the page URL, and the element's stripped text. */
  datatype Anchor = Anchor(href: string, resolved: Url, text: string)

  /** One entry of the result: `{"url": link, "anchor_text": anchor_text}`. */
  datatype Link = Link(url: Url, anchorText: string)

  datatype LinkSet = LinkSet(internal: seq<Link>, external: seq<Link>)

  /** Fragment, script, mail and phone hrefs are dropped before resolving. */
  predicate Skipped(href: string)
  {
    StartsWith(href, "#") || StartsWith(href, "javascript")
    || StartsWith(href, "mailto:") || StartsWith(href, "tel:")
  }

  /** An anchor that yields a link: not skipped, and an http(s) scheme
      after resolving. */
  predicate Eligible(a: Anchor)
  {
    !Skipped(a.href) && StartsWith(a.resolved.scheme, "http")
  }

  /** Same host as the page, or a subdomain of it. */
  predicate IsInternal(netloc: string, base: string)
  {
    netloc == base || EndsWith(netloc, "." + base)
  }

  function LinkOf(a: Anchor): Link
  {
    Link(a.resolved, a.text)
  }

  /** The links of the eligible anchors that fall on one side (`internal`
      or not), in document order, repeats included. */
  function Side(anchors: seq<Anchor>, base: string, internal: bool): (ls: seq<Link>)
    ensures forall i :: 0 <= i < |ls| ==> IsInternal(ls[i].url.netloc, base) == internal
  {
    if |anchors| == 0 then []
    else
      var a := anchors[|anchors| - 1];
      Side(anchors[..|anchors| - 1], base, internal)
        + (if Eligible(a) && IsInternal(a.resolved.netloc, base) == internal then [LinkOf(a)] else [])
  }

  function Urls(ls: seq<Link>): (us: seq<Url>)
    ensures |us| == |ls|
    ensures forall i :: 0 <= i < |ls| ==> us[i] == ls[i].url
  {
    if |ls| == 0 then [] else Urls(ls[..|ls| - 1]) + [ls[|ls| - 1].url]
  }

  lemma UrlsAppend(ls: seq<Link>, l: Link)
    ensures Urls(ls + [l]) == Urls(ls) + [l.url]
  {
    assert (ls + [l])[..|ls|] == ls;
  }

  /** One link past the `seen` check: appended only if its URL is new. */
  function AddFirst(d: seq<Link>, l: Link): seq<Link>
  {
    if l.url in Urls(d) then d else d + [l]
  }

  /** The first link for every URL, in order: what the `seen` sets keep. */
  function FirstPerUrl(ls: seq<Link>): (r: seq<Link>)
  {
    if |ls| == 0 then [] else AddFirst(FirstPerUrl(ls[..|ls| - 1]), ls[|ls| - 1])
  }

  /** The URLs kept are exactly the de-duplicated URLs, in first-seen order;
      in particular no URL is listed twice. */
  lemma {:induction false} FirstPerUrlUrls(ls: seq<Link>)
    ensures Urls(FirstPerUrl(ls)) == Dedup(Urls(ls))
    ensures NoDuplicates(Urls(FirstPerUrl(ls)))
    decreases |ls|
  {
    if |ls| > 0 {
      var n := |ls| - 1;
      FirstPerUrlUrls(ls[..n]);
      var d := FirstPerUrl(ls[..n]);
      assert Urls(ls)[..n] == Urls(ls[..n]);
      UrlsAppend(d, ls[n]);
    }
  }

  /** Every kept link is the first link of its URL, anchor text included:
      the returned `j` is where it came from. */
  lemma {:induction false} FirstPerUrlKeepsFirst(ls: seq<Link>, i: nat) returns (j: nat)
    requires i < |FirstPerUrl(ls)|
    ensures j < |ls| && ls[j] == FirstPerUrl(ls)[i]
    ensures ls[j].url !in Urls(ls[..j])
    decreases |ls|
  {
    var n := |ls| - 1;
    var init := ls[..n];
    var d := FirstPerUrl(init);
    if i < |d| {
      j := FirstPerUrlKeepsFirst(init, i);
      assert init[..j] == ls[..j];
    } else {
      j := n;
      FirstPerUrlUrls(init);
      DedupSameElements(Urls(init), ls[n].url);
    }
  }

  /** The functional reading of `extract_links()`. */
  function ExtractLinksSpec(anchors: seq<Anchor>, base: string): LinkSet
  {
    LinkSet(FirstPerUrl(Side(anchors, base, true)), FirstPerUrl(Side(anchors, base, false)))
  }

  /** `Side` and `FirstPerUrl` after one more anchor. */
  lemma SideStep(anchors: seq<Anchor>, base: string, i: nat, internal: bool)
    requires i < |anchors|
    ensures FirstPerUrl(Side(anchors[..i + 1], base, internal)) ==
      var a := anchors[i];
      var d := FirstPerUrl(Side(anchors[..i], base, internal));
      if Eligible(a) && IsInternal(a.resolved.netloc, base) == internal then AddFirst(d, LinkOf(a)) else d
  {
    assert anchors[..i + 1][..i] == anchors[..i];
    var s := Side(anchors[..i], base, internal);
    var a := anchors[i];
    if Eligible(a) && IsInternal(a.resolved.netloc, base) == internal {
      assert Side(anchors[..i + 1], base, internal) == s + [LinkOf(a)];
      assert (s + [LinkOf(a)])[..|s|] == s;
    } else {
      assert Side(anchors[..i + 1], base, internal) == s;
    }
  }

  /** `extract_links()`: the anchor loop with its two `seen` sets. `base` is
      the page URL's network location. */
  method ExtractLinks(anchors: seq<Anchor>, base: string) returns (r: LinkSet)
    ensures r == ExtractLinksSpec(anchors, base)
  {
    var internal: seq<Link> := [];
    var external: seq<Link> := [];
    var seenInternal: set<Url> := {};
    var seenExternal: set<Url> := {};
    var i := 0;
    while i < |anchors|
      invariant 0 <= i <= |anchors|
      invariant internal == FirstPerUrl(Side(anchors[..i], base, true))
      invariant external == FirstPerUrl(Side(anchors[..i], base, false))
      invariant forall u :: u in seenInternal <==> u in Urls(internal)
      invariant forall u :: u in seenExternal <==> u in Urls(external)
    {
      var a := anchors[i];
      SideStep(anchors, base, i, true);
      SideStep(anchors, base, i, false);
      if !Skipped(a.href) && StartsWith(a.resolved.scheme, "http") {
        var link := LinkOf(a);
        if IsInternal(a.resolved.netloc, base) {
          if link.url !in seenInternal {
            UrlsAppend(internal, link);
            internal := internal + [link];
            seenInternal := seenInternal + {link.url};
          }
        } else {
          if link.url !in seenExternal {
            UrlsAppend(external, link);
            external := external + [link];
            seenExternal := seenExternal + {link.url};
          }
        }
      }
      i := i + 1;
    }
    assert anchors[..i] == anchors;
    r := LinkSet(internal, external);
  }

  /** Some eligible anchor on the given side resolves to `u`. */
  ghost predicate ResolvesTo(anchors: seq<Anchor>, base: string, internal: bool, u: Url)
  {
    exists k :: 0 <= k < |anchors| && Eligible(anchors[k]) && anchors[k].resolved == u
      && IsInternal(u.netloc, base) == internal
  }

  /** Every eligible anchor on a side has its URL listed on that side. */
  lemma {:induction false} SideHasAnchor(anchors: seq<Anchor>, base: string, internal: bool, k: nat)
    requires k < |anchors| && Eligible(anchors[k])
    requires IsInternal(anchors[k].resolved.netloc, base) == internal
    ensures anchors[k].resolved in Urls(Side(anchors, base, internal))
    decreases |anchors|
  {
    var n := |anchors| - 1;
    var init := anchors[..n];
    var s := Side(init, base, internal);
    if k == n {
      UrlsAppend(s, LinkOf(anchors[n]));
    } else {
      assert init[k] == anchors[k];
      SideHasAnchor(init, base, internal, k);
      var t := Side(anchors, base, internal);
      assert t[..|s|] == s;
      var j :| 0 <= j < |s| && Urls(s)[j] == anchors[k].resolved;
      assert Urls(t)[j] == anchors[k].resolved;
    }
  }

  /** Every listed link comes from an eligible anchor on that side. */
  lemma {:induction false} SideOrigin(anchors: seq<Anchor>, base: string, internal: bool, j: nat)
    returns (k: nat)
    requires j < |Side(anchors, base, internal)|
    ensures k < |anchors| && Eligible(anchors[k])
    ensures LinkOf(anchors[k]) == Side(anchors, base, internal)[j]
    decreases |anchors|
  {
    var n := |anchors| - 1;
    var init := anchors[..n];
    var s := Side(init, base, internal);
    if j < |s| {
      k := SideOrigin(init, base, internal, j);
      assert init[k] == anchors[k];
    } else {
      k := n;
    }
  }

  /** A URL is listed on a side exactly when an eligible anchor on that side
      resolves to it. */
  lemma SideMembership(anchors: seq<Anchor>, base: string, internal: bool, u: Url)
    ensures u in Urls(Side(anchors, base, internal)) <==> ResolvesTo(anchors, base, internal, u)
  {
    var s := Side(anchors, base, internal);
    if u in Urls(s) {
      var j :| 0 <= j < |s| && Urls(s)[j] == u;
      var k := SideOrigin(anchors, base, internal, j);
    }
    if ResolvesTo(anchors, base, internal, u) {
      var k :| 0 <= k < |anchors| && Eligible(anchors[k]) && anchors[k].resolved == u
        && IsInternal(u.netloc, base) == internal;
      SideHasAnchor(anchors, base, internal, k);
    }
  }

  /** What `extract_links()` returns: internal and external URLs are unique,
      lie on their side of the page's domain, and are exactly the URLs of the
      eligible anchors. */
  lemma ExtractLinksProperties(anchors: seq<Anchor>, base: string, u: Url)
    ensures NoDuplicates(Urls(ExtractLinksSpec(anchors, base).internal))
    ensures NoDuplicates(Urls(ExtractLinksSpec(anchors, base).external))
    ensures u in Urls(ExtractLinksSpec(anchors, base).internal) <==> ResolvesTo(anchors, base, true, u)
    ensures u in Urls(ExtractLinksSpec(anchors, base).external) <==> ResolvesTo(anchors, base, false, u)
  {
    var si := Side(anchors, base, true);
    var se := Side(anchors, base, false);
    FirstPerUrlUrls(si);
    FirstPerUrlUrls(se);
    SideMembership(anchors, base, true, u);
    SideMembership(anchors, base, false, u);
    DedupSameElements(Urls(si), u);
    DedupSameElements(Urls(se), u);
  }

  /** No URL is both internal and external. */
  lemma LinksDisjoint(anchors: seq<Anchor>, base: string, u: Url)
    ensures !(u in Urls(ExtractLinksSpec(anchors, base).internal) && u in Urls(ExtractLinksSpec(anchors, base).external))
  {
    ExtractLinksProperties(anchors, base, u);
  }

  /** `Dedup` keeps exactly the elements it is given. */
  lemma DedupSameElements<T>(xs: seq<T>, y: T)
    ensures y in Dedup(xs) <==> y in xs
  {
    if y in xs {
      var i :| 0 <= i < |xs| && xs[i] == y;
    }
  }
}

=== FILE: llm_context.dfy ===
/** The LLM context builder (`LLMContextBuilder`): the weak areas of a score
    report, the priority order of its sections, the bounded content
    excerpt, and the context record that gathers them with fields copied
    from the crawl snapshot and the score report. */
module LlmContext {
  import opened JsonValue
  import opened Text
  import opened Seqs
  import opened Features
  import opened Specifications
  import opened ProductSchema
  import opened Headings
  import opened Page
  import opened Scoring

  // ------------------------------------------------------------------
  // Weak areas
  // ------------------------------------------------------------------

  /** Some item earned nothing. */
  predicate HasZero(b: Breakdown)
  {
    exists i | 0 <= i < |b| :: b[i].points == 0
  }

  /** `[k for k, v in values.items() if v == 0]` */
  function ZeroKeys(b: Breakdown): (ks: seq<string>)
    ensures |ks| <= |b|
    ensures forall k :: k in ks <==> Entry(k, 0) in b
    ensures |ks| > 0 <==> HasZero(b)
  {
    if |b| == 0 then []
    else
      var rest := ZeroKeys(b[1..]);
      assert forall e :: e in b <==> e == b[0] || e in b[1..];
      assert HasZero(b) <==> b[0].points == 0 || HasZero(b[1..]) by {
        if HasZero(b[1..]) {
          var i :| 0 <= i < |b[1..]| && b[1..][i].points == 0;
          assert b[i + 1].points == 0;
        }
      }
      (if b[0].points == 0 then [b[0].key] else []) + rest
  }

  /** The zero keys of a breakdown come in breakdown order: listing them
      commutes with concatenation. */
  lemma {:induction false} ZeroKeysAppend(a: Breakdown, b: Breakdown)
    ensures ZeroKeys(a + b) == ZeroKeys(a) + ZeroKeys(b)
    decreases |a|
  {
    if |a| > 0 {
      assert (a + b)[0] == a[0];
      assert (a + b)[1..] == a[1..] + b;
      ZeroKeysAppend(a[1..], b);
    } else {
      assert a + b == b;
    }
  }

  /** `identify_weak_areas()`: each section whose breakdown has a zero,
      with its zero keys, in section order. No section is listed with an
      empty list. */
  function WeakAreas(bs: seq<(string, Breakdown)>): (w: seq<(string, seq<string>)>)
    ensures |w| <= |bs|
    ensures forall i :: 0 <= i < |w| ==> |w[i].1| > 0
  {
    if |bs| == 0 then []
    else
      var z := ZeroKeys(bs[0].1);
      var head := if |z| > 0 then [(bs[0].0, z)] else [];
      head + WeakAreas(bs[1..])
  }

  /** A section is listed, with exactly its zero keys, if and only if its
      breakdown has a zero. */
  lemma WeakAreasMembership(bs: seq<(string, Breakdown)>, j: nat)
    requires j < |bs|
    ensures HasZero(bs[j].1) <==> (bs[j].0, ZeroKeys(bs[j].1)) in WeakAreas(bs)
  {
    if HasZero(bs[j].1) {
      var i := WeakAreasListsZero(bs, j);
    } else {
      assert |ZeroKeys(bs[j].1)| == 0;
    }
  }

  /** A section whose breakdown has a zero is listed with its zero keys,
      at position `i`. */
  lemma {:induction false} WeakAreasListsZero(bs: seq<(string, Breakdown)>, j: nat) returns (i: nat)
    requires j < |bs| && HasZero(bs[j].1)
    ensures i < |WeakAreas(bs)| && WeakAreas(bs)[i] == (bs[j].0, ZeroKeys(bs[j].1))
    decreases |bs|
  {
    var z0 := ZeroKeys(bs[0].1);
    var head := if |z0| > 0 then [(bs[0].0, z0)] else [];
    var rest := WeakAreas(bs[1..]);
    assert WeakAreas(bs) == head + rest;
    if j == 0 {
      i := 0;
    } else {
      assert bs[1..][j - 1] == bs[j];
      var k := WeakAreasListsZero(bs[1..], j - 1);
      i := |head| + k;
      assert (head + rest)[i] == rest[k];
    }
  }

  /** Every listed section comes from the breakdowns, with its zero keys. */
  lemma {:induction false} WeakAreaOrigin(bs: seq<(string, Breakdown)>, i: nat) returns (j: nat)
    requires i < |WeakAreas(bs)|
    ensures j < |bs| && WeakAreas(bs)[i] == (bs[j].0, ZeroKeys(bs[j].1))
    decreases |bs|
  {
    var z := ZeroKeys(bs[0].1);
    var head := if |z| > 0 then [(bs[0].0, z)] else [];
    var rest := WeakAreas(bs[1..]);
    assert WeakAreas(bs) == head + rest;
    if i < |head| {
      j := 0;
    } else {
      var k := WeakAreaOrigin(bs[1..], i - |head|);
      assert WeakAreas(bs)[i] == rest[i - |head|];
      assert bs[1..][k] == bs[k + 1];
      j := k + 1;
    }
  }

  /** Weak areas of sections listed one after another are listed one after
      another. */
  lemma {:induction false} WeakAreasAppend(a: seq<(string, Breakdown)>, b: seq<(string, Breakdown)>)
    ensures WeakAreas(a + b) == WeakAreas(a) + WeakAreas(b)
    decreases |a|
  {
    if |a| > 0 {
      var z := ZeroKeys(a[0].1);
      var head := if |z| > 0 then [(a[0].0, z)] else [];
      assert (a + b)[0] == a[0];
      assert (a + b)[1..] == a[1..] + b;
      assert WeakAreas(a + b) == head + WeakAreas(a[1..] + b);
      WeakAreasAppend(a[1..], b);
      assert WeakAreas(a) == head + WeakAreas(a[1..]);
    } else {
      assert a + b == b;
    }
  }

  // ------------------------------------------------------------------
  // Priority
  // ------------------------------------------------------------------

  /** The five section scores, in the order of the `sections` dict. */
  function SectionScores(s: ScoreReport): seq<int>
  {
    [s.schemaScore, s.entityScore, s.contentScore, s.trustScore, s.extractabilityScore]
  }

  predicate InRange(xs: seq<nat>, n: nat)
  {
    forall i :: 0 <= i < |xs| ==> xs[i] < n
  }

  /** Section `a` comes before section `b`: a lower score, or the same
      score and an earlier place in the dict. */
  predicate Before(key: seq<int>, a: nat, b: nat)
    requires a < |key| && b < |key|
  {
    key[a] < key[b] || (key[a] == key[b] && a < b)
  }

  predicate Ordered(key: seq<int>, xs: seq<nat>)
    requires InRange(xs, |key|)
  {
    forall i, j :: 0 <= i < j < |xs| ==> Before(key, xs[i], xs[j])
  }

  /** Insertion behind every element with a score no larger: what a stable
      sort does with an element that comes later than all of `s`. */
  function Insert(key: seq<int>, x: nat, s: seq<nat>): (r: seq<nat>)
    requires x < |key| && InRange(s, |key|)
    ensures multiset(r) == multiset(s) + multiset{x}
    ensures InRange(r, |key|)
  {
    if |s| == 0 then [x]
    else if key[x] < key[s[0]] then [x] + s
    else
      assert s == [s[0]] + s[1..];
      [s[0]] + Insert(key, x, s[1..])
  }

  /** `sorted(xs, key=...)`: insertion of each element in turn. */
  function Sort(key: seq<int>, xs: seq<nat>): (r: seq<nat>)
    requires InRange(xs, |key|)
    ensures multiset(r) == multiset(xs)
    ensures InRange(r, |key|)
  {
    if |xs| == 0 then []
    else
      var n := |xs| - 1;
      assert xs == xs[..n] + [xs[n]];
      Insert(key, xs[n], Sort(key, xs[..n]))
  }

  lemma {:induction false} InsertOrdered(key: seq<int>, x: nat, s: seq<nat>)
    requires x < |key| && InRange(s, |key|)
    requires Ordered(key, s)
    requires forall i :: 0 <= i < |s| ==> s[i] < x
    ensures Ordered(key, Insert(key, x, s))
    decreases |s|
  {
    if |s| > 0 && key[x] >= key[s[0]] {
      var rest := Insert(key, x, s[1..]);
      InsertOrdered(key, x, s[1..]);
      var r := [s[0]] + rest;
      forall j | 0 <= j < |rest|
        ensures Before(key, s[0], rest[j])
      {
        assert rest[j] in multiset(rest);
        if rest[j] != x {
          assert rest[j] in multiset(s[1..]);
          var k :| 0 <= k < |s[1..]| && s[1..][k] == rest[j];
          assert Before(key, s[0], s[k + 1]);
        }
      }
    }
  }

  predicate StrictlyIncreasing(xs: seq<nat>)
  {
    forall i, j :: 0 <= i < j < |xs| ==> xs[i] < xs[j]
  }

  /** Sorting positions given in increasing order orders them by score,
      ties broken by position: the sort is stable. */
  lemma {:induction false} SortOrdered(key: seq<int>, xs: seq<nat>)
    requires InRange(xs, |key|) && StrictlyIncreasing(xs)
    ensures Ordered(key, Sort(key, xs))
    decreases |xs|
  {
    if |xs| > 0 {
      var n := |xs| - 1;
      var s := Sort(key, xs[..n]);
      SortOrdered(key, xs[..n]);
      forall i | 0 <= i < |s|
        ensures s[i] < xs[n]
      {
        assert s[i] in multiset(xs[..n]);
      }
      InsertOrdered(key, xs[n], s);
    }
  }

  /** An ordering by score and position is unique: two arrangements of the
      same positions that are both ordered are equal. */
  lemma {:induction false} OrderedUnique(key: seq<int>, a: seq<nat>, b: seq<nat>)
    requires InRange(a, |key|) && InRange(b, |key|)
    requires multiset(a) == multiset(b)
    requires Ordered(key, a) && Ordered(key, b)
    ensures a == b
    decreases |a|
  {
    assert |a| == |multiset(a)| == |multiset(b)| == |b|;
    if |a| > 0 {
      SameFirst(key, a, b);
      assert a == [a[0]] + a[1..] && b == [b[0]] + b[1..];
      assert multiset(a) == multiset{a[0]} + multiset(a[1..]);
      assert multiset(b) == multiset{b[0]} + multiset(b[1..]);
      assert multiset(a[1..]) == multiset(a) - multiset{a[0]};
      assert multiset(b[1..]) == multiset(b) - multiset{b[0]};
      OrderedUnique(key, a[1..], b[1..]);
    }
  }

  /** Two ordered arrangements of the same positions start alike: each
      first element comes before everything else. */
  lemma SameFirst(key: seq<int>, a: seq<nat>, b: seq<nat>)
    requires InRange(a, |key|) && InRange(b, |key|)
    requires multiset(a) == multiset(b) && |a| > 0
    requires Ordered(key, a) && Ordered(key, b)
    ensures a[0] == b[0]
  {
    assert a[0] in multiset(b) && b[0] in multiset(a);
    FirstComesFirst(key, b, a[0]);
    FirstComesFirst(key, a, b[0]);
  }

  /** The first element of an ordered arrangement comes before every other
      element. */
  lemma FirstComesFirst(key: seq<int>, xs: seq<nat>, x: nat)
    requires InRange(xs, |key|) && Ordered(key, xs) && x in xs && x < |key|
    ensures x == xs[0] || Before(key, xs[0], x)
  {
    var k :| 0 <= k < |xs| && xs[k] == x;
  }

  /** The section positions in priority order. */
  function PriorityOrder(scores: seq<int>): (order: seq<nat>)
    requires |scores| == 5
    ensures multiset(order) == multiset([0, 1, 2, 3, 4])
    ensures InRange(order, 5)
    ensures Ordered(scores, order)
  {
    var xs: seq<nat> := [0, 1, 2, 3, 4];
    SortOrdered(scores, xs);
    Sort(scores, xs)
  }

  /** Any arrangement of the five sections ordered by score and position
      is the priority order. */
  lemma PriorityOrderUnique(scores: seq<int>, order: seq<nat>)
    requires |scores| == 5 && InRange(order, 5)
    requires multiset(order) == multiset([0, 1, 2, 3, 4])
    requires Ordered(scores, order)
    ensures order == PriorityOrder(scores)
  {
    OrderedUnique(scores, order, PriorityOrder(scores));
  }

  /** The names of the given section positions. */
  function NamesOf(order: seq<nat>): (ns: seq<string>)
    requires InRange(order, |SectionNames|)
    ensures |ns| == |order|
    ensures forall i :: 0 <= i < |order| ==> ns[i] == SectionNames[order[i]]
  {
    if |order| == 0 then [] else [SectionNames[order[0]]] + NamesOf(order[1..])
  }

  /** An ordered arrangement of the five positions lists each exactly
      once. */
  lemma OrderIsPermutation(scores: seq<int>, order: seq<nat>)
    requires |scores| == 5 && InRange(order, 5)
    requires multiset(order) == multiset([0, 1, 2, 3, 4])
    requires Ordered(scores, order)
    ensures |order| == 5
    ensures forall k :: 0 <= k < 5 ==> k in order
    ensures NoDuplicates(order)
  {
    assert |order| == |multiset(order)| == 5;
    forall k | 0 <= k < 5
      ensures k in order
    {
      assert k in multiset([0, 1, 2, 3, 4]);
    }
    forall i, j | 0 <= i < j < |order|
      ensures order[i] != order[j]
    {
      assert Before(scores, order[i], order[j]);
    }
  }

  /** Naming a permutation of the positions gives a permutation of the
      names, each name standing at its position's place. */
  lemma NamesOfPermutation(key: seq<int>, order: seq<nat>)
    requires |order| == 5 && InRange(order, 5)
    requires |key| == 5 && Ordered(key, order)
    requires forall k :: 0 <= k < 5 ==> k in order
    requires NoDuplicates(order)
    ensures |NamesOf(order)| == |SectionNames|
    ensures forall n :: n in NamesOf(order) <==> n in SectionNames
    ensures NoDuplicates(NamesOf(order))
    ensures forall i :: 0 <= i < 5 ==> FirstIndex(SectionNames, NamesOf(order)[i]) == order[i]
    ensures forall i, j :: 0 <= i < j < 5 ==>
      Before(key, FirstIndex(SectionNames, NamesOf(order)[i]), FirstIndex(SectionNames, NamesOf(order)[j]))
  {
    var p := NamesOf(order);
    SectionNamesDistinct();
    forall n | n in SectionNames
      ensures n in p
    {
      var k :| 0 <= k < 5 && SectionNames[k] == n;
      assert k in order;
      var i :| 0 <= i < |order| && order[i] == k;
      assert p[i] == n;
    }
    forall i | 0 <= i < 5
      ensures FirstIndex(SectionNames, p[i]) == order[i]
    {
      assert p[i] == SectionNames[order[i]];
    }
  }

  /** `get_priority()`: the five section names, each once, lowest score
      first; sections with equal scores keep their dict order. */
  function Priority(s: ScoreReport): (p: seq<string>)
    ensures |p| == |SectionNames|
    ensures forall n :: n in p <==> n in SectionNames
    ensures NoDuplicates(p)
    ensures forall i, j :: 0 <= i < j < |p| ==>
      Before(SectionScores(s), FirstIndex(SectionNames, p[i]), FirstIndex(SectionNames, p[j]))
  {
    var order := PriorityOrder(SectionScores(s));
    OrderIsPermutation(SectionScores(s), order);
    NamesOfPermutation(SectionScores(s), order);
    NamesOf(order)
  }

  /** The five section names are distinct. */
  lemma SectionNamesDistinct()
    ensures NoDuplicates(SectionNames)
    ensures forall k :: 0 <= k < |SectionNames| ==> FirstIndex(SectionNames, SectionNames[k]) == k
  {
    assert |SectionNames[0]| == 6 && |SectionNames[1]| == 6 && |SectionNames[2]| == 7;
    assert |SectionNames[3]| == 5 && |SectionNames[4]| == 14;
    assert SectionNames[0][0] == 's' && SectionNames[1][0] == 'e';
    forall k | 0 <= k < |SectionNames|
      ensures FirstIndex(SectionNames, SectionNames[k]) == k
    {
      var f := FirstIndex(SectionNames, SectionNames[k]);
      assert SectionNames[f] == SectionNames[k];
    }
  }

  // ------------------------------------------------------------------
  // Excerpt
  // ------------------------------------------------------------------

  /** `f"{k}: {v}"`. A list value prints as Python's `repr` of the list,
      which `listRepr` stands for. */
  function SpecLine(e: SpecEntry, listRepr: seq<string> -> string): string
  {
    e.key + ": " + match e.value
      case One(v) => v
      case Many(vs) => listRepr(vs)
  }

  function SpecLines(specs: Specs, listRepr: seq<string> -> string): (ls: seq<string>)
    ensures |ls| == |specs|
    ensures forall i :: 0 <= i < |specs| ==> ls[i] == SpecLine(specs[i], listRepr)
  {
    if |specs| == 0 then [] else [SpecLine(specs[0], listRepr)] + SpecLines(specs[1..], listRepr)
  }

  /** `re.sub(r"\s+", " ", clean_text).strip()[:600]`: the first 600
      characters of the collapsed text; empty exactly when the text has no
      words. */
  function CleanBlock(cleanText: string): (b: string)
    ensures |b| == if |Collapse(cleanText)| < 600 then |Collapse(cleanText)| else 600
    ensures b == Collapse(cleanText)[..|b|]
    ensures |b| == 0 <==> Words(cleanText) == []
  {
    SubRunsStripIsCollapse(cleanText);
    CollapseEnds(cleanText);
    PyPrefix(Strip(SubRuns(cleanText)), 600)
  }

  /** `"Key features: " + ".".join(features[:6])` */
  function FeatureBlock(features: seq<string>): string
  {
    "Key features: " + Join(Take(features, 6), ".")
  }

  /** `"Specifications: " + ". ".join(...)` over the first five pairs. */
  function SpecBlock(specs: Specs, listRepr: seq<string> -> string): string
  {
    "Specifications: " + Join(SpecLines(Take(specs, 5), listRepr), ". ")
  }

  /** Only the first six features reach the feature block: cutting the list
      to six, or extending a list that already has six, changes nothing. */
  lemma FeatureBlockCap(features: seq<string>, more: seq<string>)
    ensures FeatureBlock(features) == FeatureBlock(features[..if |features| < 6 then |features| else 6])
    ensures |features| >= 6 ==> FeatureBlock(features + more) == FeatureBlock(features)
  {
    var n := if |features| < 6 then |features| else 6;
    assert Take(features[..n], 6) == Take(features, 6);
    if |features| >= 6 {
      assert Take(features + more, 6) == Take(features, 6);
    }
  }

  /** Only the first five specifications reach the specification block. */
  lemma SpecBlockCap(specs: Specs, more: Specs, listRepr: seq<string> -> string)
    ensures SpecBlock(specs, listRepr) == SpecBlock(specs[..if |specs| < 5 then |specs| else 5], listRepr)
    ensures |specs| >= 5 ==> SpecBlock(specs + more, listRepr) == SpecBlock(specs, listRepr)
  {
    var n := if |specs| < 5 then |specs| else 5;
    assert Take(specs[..n], 5) == Take(specs, 5);
    if |specs| >= 5 {
      assert Take(specs + more, 5) == Take(specs, 5);
    }
  }

  /** The sections of the excerpt, in order: the clean-text block when the
      text has words, the feature block when there are features, the
      specification block when there are specifications. Each is
      non-empty. */
  function ExcerptSections(cleanText: string, features: seq<string>, specs: Specs,
                           listRepr: seq<string> -> string): (ss: seq<string>)
    ensures |ss| == (if Words(cleanText) != [] then 1 else 0) + (if |features| > 0 then 1 else 0)
      + (if |specs| > 0 then 1 else 0)
    ensures forall i :: 0 <= i < |ss| ==> |ss[i]| > 0
    ensures Words(cleanText) != [] ==> ss[0] == CleanBlock(cleanText)
    ensures |features| > 0 ==> ss[if Words(cleanText) != [] then 1 else 0] == FeatureBlock(features)
    ensures |specs| > 0 ==> ss[|ss| - 1] == SpecBlock(specs, listRepr)
  {
    var clean := CleanBlock(cleanText);
    var a := if |clean| > 0 then [clean] else [];
    var b := if |features| > 0 then [FeatureBlock(features)] else [];
    var c := if |specs| > 0 then [SpecBlock(specs, listRepr)] else [];
    OptionalParts(a, b, c, clean, FeatureBlock(features), SpecBlock(specs, listRepr),
                  |clean| > 0, |features| > 0, |specs| > 0);
    a + b + c
  }

  /** Three optional non-empty parts, in order: how many there are, that
      each is non-empty, and where each present one sits (the first at the
      front, the second right after it, the third at the end). */
  lemma OptionalParts(a: seq<string>, b: seq<string>, c: seq<string>, x: string, y: string, z: string,
                      hasX: bool, hasY: bool, hasZ: bool)
    requires a == (if hasX then [x] else []) && b == (if hasY then [y] else []) && c == (if hasZ then [z] else [])
    requires |x| > 0 || !hasX
    requires |y| > 0 && |z| > 0
    ensures |a + b + c| == (if hasX then 1 else 0) + (if hasY then 1 else 0) + (if hasZ then 1 else 0)
    ensures forall i :: 0 <= i < |a + b + c| ==> |(a + b + c)[i]| > 0
    ensures hasX ==> (a + b + c)[0] == x
    ensures hasY ==> (a + b + c)[if hasX then 1 else 0] == y
    ensures hasZ ==> (a + b + c)[|a + b + c| - 1] == z
  {
    var ss := a + b + c;
    forall i | 0 <= i < |ss|
      ensures |ss[i]| > 0
    {
      if i < |a| {
        assert ss[i] == a[i];
      } else if i < |a| + |b| {
        assert ss[i] == b[i - |a|];
      } else {
        assert ss[i] == c[i - |a| - |b|];
      }
    }
    assert hasY ==> ss[|a|] == y;
    assert hasZ ==> ss[|a| + |b|] == z;
  }

  /** The safe trimming of `get_excerpt()`. Text that fits is kept;
      otherwise the first `limit` characters (Python slicing, so a negative
      limit counts from the end) are cut back to their last period, if they
      have one. The result is always a prefix of the text, at most `limit`
      long for a non-negative limit, and ends with the last period of the
      cut when there is one. */
  function Trim(combined: string, limit: int): (r: string)
    ensures |r| <= |combined| && r == combined[..|r|]
    ensures limit >= 0 ==> |r| <= limit
    ensures |combined| <= limit ==> r == combined
    ensures |combined| > limit ==>
      var cut := PyPrefix(combined, limit);
      && |r| <= |cut|
      && ('.' in cut <==> |r| > 0 && r[|r| - 1] == '.')
      && ('.' in cut ==> '.' !in cut[|r|..])
      && ('.' !in cut ==> r == cut)
  {
    if |combined| > limit then
      var cut := PyPrefix(combined, limit);
      var last := LastIndexOf(cut, '.');
      if last != -1 then
        assert cut[..last + 1][last] == '.';
        cut[..last + 1]
      else cut
    else combined
  }

  /** Trimming to a non-negative limit twice is trimming once. */
  lemma TrimIdempotent(combined: string, limit: int)
    requires limit >= 0
    ensures Trim(Trim(combined, limit), limit) == Trim(combined, limit)
  {
  }

  /** The excerpt limit of `build_context()`. */
  const ExcerptLimit := 1200

  /** `get_excerpt(limit)`: the sections joined with spaces, then trimmed. */
  function Excerpt(cleanText: string, features: seq<string>, specs: Specs,
                   listRepr: seq<string> -> string, limit: int): (r: string)
    ensures var combined := Join(ExcerptSections(cleanText, features, specs, listRepr), " ");
      && |r| <= |combined| && r == combined[..|r|]
      && (limit >= 0 ==> |r| <= limit)
      && (|combined| <= limit ==> r == combined)
  {
    Trim(Join(ExcerptSections(cleanText, features, specs, listRepr), " "), limit)
  }

  // ------------------------------------------------------------------
  // Context record
  // ------------------------------------------------------------------

  datatype ProductSummary = ProductSummary(
    name: Json, brand: Json, price: Json, currency: Json, availability: Json,
    rating: Json, reviewCount: Json)

  /** The dict `build_context()` returns. */
  datatype Context = Context(
    url: string,
    title: string,
    metaDescription: string,
    product: ProductSummary,
    wordCount: nat,
    headingCount: nat,
    featureCount: nat,
    specificationCount: nat,
    finalScore: int,
    maxPossible: int,
    readinessPct: real,
    readinessBand: string,
    sectionScores: seq<int>,
    priorityOrder: seq<string>,
    weakAreas: seq<(string, seq<string>)>,
    penalties: Breakdown,
    contentExcerpt: string)

  /** `build_context()` for a crawl snapshot and its score report. The
      excerpt is at most 1200 characters and a prefix of the joined
      sections; the priority order lists every section once; every weak
      area lists at least one key; the content metrics count what the
      snapshot holds. Each derived field is the one its own member
      specifies (priority, weak areas, excerpt), and the rest are copied
      from the page, the product and the report. */
  function BuildContext(s: Snapshot, report: ScoreReport, listRepr: seq<string> -> string): (c: Context)
    ensures |c.contentExcerpt| <= ExcerptLimit
    ensures var combined := Join(ExcerptSections(s.cleanText, s.content.features, s.content.specifications, listRepr), " ");
      |c.contentExcerpt| <= |combined| && c.contentExcerpt == combined[..|c.contentExcerpt|]
    ensures |c.priorityOrder| == |SectionNames| && NoDuplicates(c.priorityOrder)
    ensures forall n :: n in c.priorityOrder <==> n in SectionNames
    ensures forall i :: 0 <= i < |c.weakAreas| ==> |c.weakAreas[i].1| > 0
    ensures c.headingCount == |s.content.headings| && c.featureCount == |s.content.features|
    ensures c.specificationCount == |s.content.specifications| && c.wordCount == s.content.wordCount
    ensures c.sectionScores == SectionScores(report) && c.finalScore == report.finalScore
    ensures c.priorityOrder == Priority(report) && c.weakAreas == WeakAreas(report.breakdowns)
    ensures c.contentExcerpt == Excerpt(s.cleanText, s.content.features, s.content.specifications, listRepr, ExcerptLimit)
    ensures c.maxPossible == report.maxPossible && c.readinessPct == report.percentage
      && c.readinessBand == report.readinessBand && c.penalties == report.penalties
    ensures c.url == s.pageInfo.url && c.title == s.pageInfo.title && c.metaDescription == s.pageInfo.metaDescription
    ensures c.product == ProductSummary(s.product.name, s.product.brand, s.product.price, s.product.currency,
                                        s.product.availability, s.product.rating, s.product.reviewCount)
  {
    var page := s.pageInfo;
    var p := s.product;
    Context(
      page.url, page.title, page.metaDescription,
      ProductSummary(p.name, p.brand, p.price, p.currency, p.availability, p.rating, p.reviewCount),
      s.content.wordCount, |s.content.headings|, |s.content.features|, |s.content.specifications|,
      report.finalScore, report.maxPossible, report.percentage, report.readinessBand,
      SectionScores(report),
      Priority(report),
      WeakAreas(report.breakdowns),
      report.penalties,
      Excerpt(s.cleanText, s.content.features, s.content.specifications, listRepr, ExcerptLimit))
  }
}

=== FILE: page.dfy ===
/** The page snapshot `ProductCrawler.build` assembles, and the glue that
    runs after extraction: the early error record for a failed fetch, the
    price fallback, and the page classification. The fetch, the parsers and
    the clock stay outside: the response, the parsed page and the crawl
    timestamp are inputs. */
module Page {
  import opened Wrappers
  import opened JsonValue
  import opened Text
  import opened ProductSchema
  import opened PriceFallback
  import opened Headings
  import opened Features
  import opened Specifications
  import opened Links
  import opened CleanText
  import opened Seqs

  /** What the HTTP fetch yields: status, URL after redirects, and the
      measured load time. */
  datatype FetchResponse = FetchResponse(statusCode: int, finalUrl: string, loadTimeMs: int)

  /** `extract_metadata()`: title, meta description and canonical link. */
  datatype Metadata = Metadata(title: string, metaDescription: string, canonical: string)

  /** Everything the parsers deliver about one page. `baseNetloc` is the
      network location of the page URL and `trust` the result of the trust
      signal detection. */
  datatype ParsedPage = ParsedPage(
    meta: Metadata,
    jsonLd: seq<Json>,
    headings: seq<Heading>,
    lists: seq<ListBlock>,
    tables: seq<Table>,
    anchors: seq<Anchor>,
    baseNetloc: string,
    trust: map<string, bool>,
    rawText: string,
    readableText: string)

  datatype PageInfo = PageInfo(
    url: string,
    finalUrl: string,
    statusCode: int,
    canonicalUrl: string,
    title: string,
    metaDescription: string,
    https: bool,
    loadTimeMs: int,
    pageType: string,
    crawlTimestamp: string)

  datatype Content = Content(
    headings: seq<Heading>,
    features: seq<string>,
    specifications: Specs,
    wordCount: nat)

  /** The dict `build()` returns for a page that was fetched. */
  datatype Snapshot = Snapshot(
    pageInfo: PageInfo,
    product: ProductRecord,
    content: Content,
    schemaData: seq<Json>,
    links: LinkSet,
    trustSignals: map<string, bool>,
    cleanText: string)

  datatype BuildResult =
    | Failed(error: string, url: string)
    | Built(snapshot: Snapshot)

  /** The message of the error record. */
  function FetchError(statusCode: int): string
  {
    "Failed to fetch page. Status code: " + IntToString(statusCode)
  }

  /** `if not product_data.get("price"): product_data["price"] = fallback`,
      where a missing match stores `None`. */
  function WithFallbackPrice(product: ProductRecord, cleanText: string): (p: ProductRecord)
    ensures Truthy(product.price) ==> p == product
    ensures p.(price := product.price) == product
    ensures !Truthy(product.price) ==>
      (p.price.Null? <==> ExtractPriceFallback(cleanText).None?)
    // a price still missing afterwards means the text holds no amount either
    ensures !Truthy(p.price) ==> forall a :: !MatchesAt(cleanText, a)
    ensures !Truthy(product.price) && p.price.Str? ==>
      |p.price.s| >= 2 && IsCurrencySymbol(p.price.s[0])
  {
    if Truthy(product.price) then product
    else
      match ExtractPriceFallback(cleanText)
      case None => product.(price := Null)
      case Some(m) => product.(price := Str(m))
  }

  /** "PRODUCT" when the product has a truthy name, "UNKNOWN" otherwise. */
  function PageType(product: ProductRecord): string
  {
    if Truthy(product.name) then "PRODUCT" else "UNKNOWN"
  }

  /** `build()`. A non-200 status gives the error record and nothing is
      extracted; otherwise every extractor runs on the parsed page, the
      fallback price is used only when the JSON-LD price is falsy, and the
      page is a product page exactly when the product has a name. */
  method Build(url: string, response: FetchResponse, page: ParsedPage, timestamp: string)
    returns (r: BuildResult)
    ensures response.statusCode != 200 <==> r.Failed?
    ensures r.Failed? ==> r == Failed(FetchError(response.statusCode), url)
    ensures r.Built? ==>
      var s := r.snapshot;
      var parsed := ParseProductSchema(page.jsonLd);
      var clean := ExtractCleanText(page.rawText, page.readableText);
      && s.product == WithFallbackPrice(parsed, clean.text)
      && s.cleanText == clean.text
      && s.content.wordCount == clean.wordCount
      && s.content.headings == ExtractHeadings(page.headings)
      && s.content.features == Take(Dedup(Candidates(page.lists)), MaxFeatures)
      && s.content.specifications == ExtractSpecifications(page.tables)
      && s.links == ExtractLinksSpec(page.anchors, page.baseNetloc)
      && s.schemaData == page.jsonLd
      && s.trustSignals == page.trust
    ensures r.Built? ==>
      var info := r.snapshot.pageInfo;
      && info == PageInfo(url, response.finalUrl, 200, page.meta.canonical, page.meta.title,
                          page.meta.metaDescription, StartsWith(url, "https"), response.loadTimeMs,
                          info.pageType, timestamp)
      && (info.pageType == "PRODUCT" <==> Truthy(r.snapshot.product.name))
      && (info.pageType == "PRODUCT" || info.pageType == "UNKNOWN")
  {
    if response.statusCode != 200 {
      return Failed(FetchError(response.statusCode), url);
    }
    var product := ParseProductSchema(page.jsonLd);
    var headings := ExtractHeadings(page.headings);
    var features := ExtractFeatures(page.lists);
    var specs := ExtractSpecifications(page.tables);
    var links := ExtractLinks(page.anchors, page.baseNetloc);
    var clean := ExtractCleanText(page.rawText, page.readableText);
    if !Truthy(product.price) {
      var fallback := ExtractPriceFallback(clean.text);
      product := product.(price := if fallback.Some? then Str(fallback.value) else Null);
    }
    var pageType := if Truthy(product.name) then "PRODUCT" else "UNKNOWN";
    var info := PageInfo(url, response.finalUrl, response.statusCode, page.meta.canonical,
                         page.meta.title, page.meta.metaDescription, StartsWith(url, "https"),
                         response.loadTimeMs, pageType, timestamp);
    var content := Content(headings, features, specs, clean.wordCount);
    r := Built(Snapshot(info, product, content, page.jsonLd, links, page.trust, clean.text));
  }
}

=== FILE: pipeline.dfy ===
/** The crawl dict as the scoring engine reads it. The engine takes the
    crawler's output as `crawl_data` and looks up `product`, `content`,
    `trust_signals`, `schema_data` and `meta`; the crawler writes no `meta`,
    no `category` or `gtin` in the product, and no `images` or `faq` in the
    content, so those items can never earn points for a crawled page. */
module Pipeline {
  import opened Wrappers
  import opened JsonValue
  import opened Text
  import opened ProductSchema
  import opened PriceFallback
  import opened Headings
  import opened Page
  import opened Scoring

  /** The product dict the crawler writes. */
  function ProductMap(p: ProductRecord): map<string, Json>
  {
    map["name" := p.name, "brand" := p.brand, "sku" := p.sku, "price" := p.price,
        "currency" := p.currency, "availability" := p.availability, "rating" := p.rating,
        "review_count" := p.reviewCount]
  }

  /** `{"level": "h<n>", "text": text}` */
  function HeadingJson(h: Heading): Json
  {
    Obj(map["level" := Str(Tag(h.level)), "text" := Str(h.text)])
  }

  function HeadingsJson(hs: seq<Heading>): (js: seq<Json>)
    ensures |js| == |hs|
    ensures forall i :: 0 <= i < |hs| ==> js[i] == HeadingJson(hs[i])
  {
    if |hs| == 0 then [] else [HeadingJson(hs[0])] + HeadingsJson(hs[1..])
  }

  /** The trust booleans as dict values. */
  function TrustMap(t: map<string, bool>): map<string, Json>
  {
    map k | k in t :: Bool(t[k])
  }

  /** What `AIScoringEngine(crawl_data)` reads from a crawled snapshot. */
  function ScoreInputOf(s: Snapshot): ScoreInput
  {
    ScoreInput(
      ProductMap(s.product),
      ContentInput(s.content.wordCount, HeadingsJson(s.content.headings),
                   |s.content.features|, |s.content.specifications|, [], Null),
      TrustMap(s.trustSignals),
      s.schemaData,
      map[])
  }

  /** The crawler's product dict holds the name, and no category or gtin. */
  lemma ProductMapKeys(p: ProductRecord)
    ensures "name" in ProductMap(p) && ProductMap(p)["name"] == p.name
    ensures "category" !in ProductMap(p) && "gtin" !in ProductMap(p)
  {
  }

  /** Without a category and a gtin a product earns at most 11 entity
      points. */
  lemma EntityCeiling(m: map<string, Json>)
    requires ScoreEntity(m).Ok?
    requires "category" !in m && "gtin" !in m
    ensures ScoreEntity(m).value.score <= 11
  {
    var b := ScoreEntity(m).value.breakdown;
    assert !Has(m, EntityKeys[3]) && !Has(m, EntityKeys[4]);
    assert b[..5][0] == b[0] && b[..5][1] == b[1] && b[..5][2] == b[2];
    assert b[..5][3] == b[3] && b[..5][4] == b[4];
    EntityItemsBound(b);
  }

  /** The entity items without category and gtin points, and with at most
      2 name-quality points, add up to at most 11. */
  lemma EntityItemsBound(b: Breakdown)
    requires |b| == 5 || |b| == 6
    requires 0 <= b[0].points <= 4 && 0 <= b[1].points <= 3 && 0 <= b[2].points <= 2
    requires b[3].points == 0 && b[4].points == 0
    requires |b| == 6 ==> 0 <= b[5].points <= 2
    ensures Total(b) <= 11
  {
    var w := if |b| == 6 then [4, 3, 2, 0, 0, 2] else [4, 3, 2, 0, 0];
    forall i | 0 <= i < |b|
      ensures 0 <= b[i].points <= w[i]
    {
      if i == 0 {} else if i == 1 {} else if i == 2 {} else if i == 3 {} else if i == 4 {} else {}
    }
    TotalWithin(b, w);
    if |b| == 6 {
      assert SumInts([4, 3, 2, 0, 0, 2]) == 11;
    } else {
      assert SumInts([4, 3, 2, 0, 0]) == 9;
    }
  }

  /** Without images and an FAQ content earns at most 21 points. */
  lemma ContentCeiling(c: ContentInput)
    requires c.images == [] && !Truthy(c.faq)
    ensures ScoreContent(c).score <= 21
  {
    var b := ScoreContent(c).breakdown;
    assert !HasImageWithAlt(c.images);
    TotalWithin(b, [8, 4, 4, 5, 0, 0]);
  }

  /** Without metadata extractability earns at most 10 points. */
  lemma ExtractabilityCeiling(inp: ScoreInput)
    requires inp.meta == map[]
    ensures ScoreExtractability(inp).score <= 10
  {
    var b := ScoreExtractability(inp).breakdown;
    TotalWithin(b, [4, 2, 4, 0, 0, 0, 0]);
  }

  /** The inputs a crawled page can produce: no category or gtin in the
      product, no images or FAQ in the content, and no metadata. */
  predicate ShapedLikeCrawl(inp: ScoreInput)
  {
    && "category" !in inp.product && "gtin" !in inp.product
    && inp.content.images == [] && inp.content.faq == Null && inp.meta == map[]
  }

  /** Every crawled snapshot gives such an input. */
  lemma CrawlIsShaped(s: Snapshot)
    ensures ShapedLikeCrawl(ScoreInputOf(s))
  {
    ProductMapKeys(s.product);
  }

  /** An input shaped like a crawled page scores at most 78: schema 20,
      entity 11, content 21, trust 16 and extractability 10. */
  lemma ReportCeiling(inp: ScoreInput)
    requires ShapedLikeCrawl(inp)
    requires ComputeScore(inp).Ok?
    ensures ComputeScore(inp).value.finalScore <= 78
  {
    ComputeScoreSections(inp);
    EntityCeiling(inp.product);
    ContentCeiling(inp.content);
    ExtractabilityCeiling(inp);
  }

  /** Below 85 percent the band is not the top one. */
  lemma BelowTopBand(final: int, pct: real)
    requires final <= 78 && pct == final as real
    ensures ReadinessBand(pct) != "Excellent — AI/GEO Ready"
  {
  }

  /** Scoring a crawled snapshot fails exactly when its product name is
      truthy but not a string. */
  lemma CrawledScoreFails(s: Snapshot)
    ensures ComputeScore(ScoreInputOf(s)).Err? <==> Truthy(s.product.name) && !s.product.name.Str?
  {
    ProductMapKeys(s.product);
  }

  /** Whatever a crawled page holds, its final score is at most 78 of 100,
      so it never reaches the top band. */
  lemma CrawledScoreCeiling(s: Snapshot)
    requires ComputeScore(ScoreInputOf(s)).Ok?
    ensures ComputeScore(ScoreInputOf(s)).value.finalScore <= 78
    ensures ComputeScore(ScoreInputOf(s)).value.readinessBand != "Excellent — AI/GEO Ready"
  {
    var inp := ScoreInputOf(s);
    CrawlIsShaped(s);
    ReportCeiling(inp);
    var rep := ComputeScore(inp).value;
    BelowTopBand(rep.finalScore, rep.percentage);
  }

  /** A price taken from the text by the fallback starts with a currency
      symbol, so it never earns the price-format bonus. */
  lemma FallbackPriceHasNoBonus(product: ProductRecord, cleanText: string)
    requires !Truthy(product.price)
    ensures !PriceFormatOk(WithFallbackPrice(product, cleanText).price)
  {
    var p := WithFallbackPrice(product, cleanText).price;
    if p.Str? {
      var c := p.s[0];
      assert IsCurrencySymbol(c);
      SymbolPriceHasNoBonus(p.s);
    }
  }
}

=== FILE: price_fallback.dfy ===
/** Regular-expression price recovery from the page text
    (`ProductCrawler.extract_price_fallback`). The pattern is
        (₹|\$|€|£)\s?\d{1,3}(?:,\d{3})*(?:\.\d+)?
    and `re.search` returns its leftmost match. The currency symbol is NOT
    optional. The language of the pattern is written out below as
    `PatternAt`, independently of the greedy scanner `MatchAt`; the lemmas
    show the scanner finds exactly the longest match at a position, which
    is the one the backtracking matcher commits to first because every
    greedy choice is followed only by optional parts. */
module PriceFallback {
  import opened Wrappers
  import opened Text

  predicate IsCurrencySymbol(c: char)
  {
    c == '₹' || c == '$' || c == '€' || c == '£'
  }

  /** Every character of `s[a..b]` is a digit. */
  predicate AllDigits(s: string, a: int, b: int)
    requires 0 <= a <= b <= |s|
  {
    forall k :: a <= k < b ==> IsDigit(s[k])
  }

  /** `s[p..e]` matches `\.\d+` */
  predicate FracFrom(s: string, p: int, e: int)
    requires 0 <= p <= e <= |s|
  {
    p + 2 <= e && s[p] == '.' && AllDigits(s, p + 1, e)
  }

  /** `s[p..e]` matches `(?:,\d{3})*(?:\.\d+)?` */
  predicate TailFrom(s: string, p: int, e: int)
    requires 0 <= p <= e <= |s|
    decreases e - p
  {
    || p == e
    || FracFrom(s, p, e)
    || (p + 4 <= e && s[p] == ',' && AllDigits(s, p + 1, p + 4) && TailFrom(s, p + 4, e))
  }

  /** `s[j..e]` is `k` digits followed by a tail. */
  predicate DigitsThenTail(s: string, j: int, k: int, e: int)
    requires 0 <= j <= e <= |s|
  {
    1 <= k <= 3 && j + k <= e && AllDigits(s, j, j + k) && TailFrom(s, j + k, e)
  }

  /** `s[j..e]` matches `\d{1,3}(?:,\d{3})*(?:\.\d+)?` */
  predicate BodyFrom(s: string, j: int, e: int)
    requires 0 <= j <= e <= |s|
  {
    exists k | 1 <= k <= 3 :: DigitsThenTail(s, j, k, e)
  }

  /** `s[i..e]` matches the whole price pattern. */
  predicate PatternAt(s: string, i: int, e: int)
  {
    && 0 <= i < e <= |s|
    && IsCurrencySymbol(s[i])
    && (|| (i + 1 <= e && BodyFrom(s, i + 1, e))
        || (i + 2 <= e && IsSpace(s[i + 1]) && BodyFrom(s, i + 2, e)))
  }

  /** Length of the run of digits starting at `a`. */
  function Digits(s: string, a: nat): (n: nat)
    requires a <= |s|
    ensures a + n <= |s|
    ensures AllDigits(s, a, a + n)
    ensures a + n < |s| ==> !IsDigit(s[a + n])
    decreases |s| - a
  {
    if a < |s| && IsDigit(s[a]) then 1 + Digits(s, a + 1) else 0
  }

  /** End of the greedy `(?:,\d{3})*` starting at `p`. */
  function GroupsEnd(s: string, p: nat): (q: nat)
    requires p <= |s|
    ensures p <= q <= |s|
    decreases |s| - p
  {
    if p + 4 <= |s| && s[p] == ',' && AllDigits(s, p + 1, p + 4) then GroupsEnd(s, p + 4) else p
  }

  /** End of the greedy `(?:\.\d+)?` starting at `q`. */
  function FracEnd(s: string, q: nat): (e: nat)
    requires q <= |s|
    ensures q <= e <= |s|
  {
    if q + 1 < |s| && s[q] == '.' && IsDigit(s[q + 1]) then q + 1 + Digits(s, q + 1) else q
  }

  function TailEnd(s: string, p: nat): (e: nat)
    requires p <= |s|
    ensures p <= e <= |s|
  {
    FracEnd(s, GroupsEnd(s, p))
  }

  /** Start of the digits: the optional `\s?` is taken when present. */
  function BodyStart(s: string, i: nat): nat
    requires i < |s|
  {
    if i + 1 < |s| && IsSpace(s[i + 1]) then i + 2 else i + 1
  }

  /** The greedy scanner at position `i`: the end of the match, if any. */
  function MatchAt(s: string, i: nat): Option<nat>
    requires i <= |s|
  {
    if i < |s| && IsCurrencySymbol(s[i]) then
      var j := BodyStart(s, i);
      var d := if Digits(s, j) < 3 then Digits(s, j) else 3;
      if d >= 1 then Some(TailEnd(s, j + d)) else None
    else None
  }

  lemma DigitsAtLeast(s: string, a: nat, b: nat)
    requires a <= b <= |s|
    requires AllDigits(s, a, b)
    ensures Digits(s, a) >= b - a
    decreases b - a
  {
    if a < b {
      DigitsAtLeast(s, a + 1, b);
    }
  }

  lemma {:induction false} TailEndMatches(s: string, p: nat)
    requires p <= |s|
    ensures TailFrom(s, p, TailEnd(s, p))
    decreases |s| - p
  {
    if p + 4 <= |s| && s[p] == ',' && AllDigits(s, p + 1, p + 4) {
      TailEndMatches(s, p + 4);
    } else {
      var q := GroupsEnd(s, p);
      assert q == p;
      if q + 1 < |s| && s[q] == '.' && IsDigit(s[q + 1]) {
        assert FracFrom(s, p, TailEnd(s, p));
      }
    }
  }

  lemma {:induction false} TailEndIsLongest(s: string, p: nat, e: nat)
    requires p <= e <= |s|
    requires TailFrom(s, p, e)
    ensures e <= TailEnd(s, p)
    decreases e - p
  {
    if p == e {
    } else if FracFrom(s, p, e) {
      assert GroupsEnd(s, p) == p;
      DigitsAtLeast(s, p + 1, e);
    } else {
      assert GroupsEnd(s, p) == GroupsEnd(s, p + 4);
      TailEndIsLongest(s, p + 4, e);
    }
  }

  /** A tail that starts on a digit is empty. */
  lemma TailFromDigit(s: string, p: nat, e: nat)
    requires p <= e <= |s|
    requires p < |s| && IsDigit(s[p])
    requires TailFrom(s, p, e)
    ensures e == p
  {
  }

  lemma BodyFromIsLongest(s: string, j: nat, e: nat)
    requires j <= e <= |s|
    requires BodyFrom(s, j, e)
    ensures Digits(s, j) >= 1
    ensures e <= TailEnd(s, j + (if Digits(s, j) < 3 then Digits(s, j) else 3))
  {
    var d := if Digits(s, j) < 3 then Digits(s, j) else 3;
    var k :| 1 <= k <= 3 && DigitsThenTail(s, j, k, e);
    DigitsAtLeast(s, j, j + k);
    if k < d {
      TailFromDigit(s, j + k, e);
    } else {
      TailEndIsLongest(s, j + k, e);
    }
  }

  /** Every match at `i` is found by the scanner and ends no later than the
      scanner's match. */
  lemma MatchAtLongest(s: string, i: nat, e: nat)
    requires PatternAt(s, i, e)
    ensures MatchAt(s, i).Some? && e <= MatchAt(s, i).value
  {
    var j := BodyStart(s, i);
    BodyFromIsLongest(s, j, e);
  }

  /** What the scanner finds is a match. */
  lemma MatchAtSound(s: string, i: nat)
    requires i <= |s|
    requires MatchAt(s, i).Some?
    ensures PatternAt(s, i, MatchAt(s, i).value)
  {
    var j := BodyStart(s, i);
    var d := if Digits(s, j) < 3 then Digits(s, j) else 3;
    var m := TailEnd(s, j + d);
    TailEndMatches(s, j + d);
    assert DigitsThenTail(s, j, d, m);
  }

  /** Every match is at least a symbol and a digit long. */
  lemma PatternAtLength(s: string, i: int, e: int)
    requires PatternAt(s, i, e)
    ensures i + 2 <= e
  {
  }

  /** The scanner finds a match exactly when the pattern matches at `i`,
      and then the longest one. */
  lemma MatchAtCorrect(s: string, i: nat)
    requires i <= |s|
    ensures MatchAt(s, i).Some? ==>
      PatternAt(s, i, MatchAt(s, i).value)
      && forall e :: PatternAt(s, i, e) ==> e <= MatchAt(s, i).value
    ensures MatchAt(s, i).None? ==> forall e :: !PatternAt(s, i, e)
  {
    forall e | PatternAt(s, i, e)
      ensures MatchAt(s, i).Some? && e <= MatchAt(s, i).value
    {
      MatchAtLongest(s, i, e);
    }
    if MatchAt(s, i).Some? {
      MatchAtSound(s, i);
    }
  }

  /** The regular expression matches at `i` (ending somewhere). */
  ghost predicate MatchesAt(s: string, i: int)
  {
    exists e :: PatternAt(s, i, e)
  }

  /** `re.search` from position `i` on: start and end of the leftmost match. */
  function SearchFrom(s: string, i: nat): (r: Option<(nat, nat)>)
    requires i <= |s|
    ensures r.None? ==> forall a :: i <= a ==> !MatchesAt(s, a)
    ensures r.Some? ==>
      && i <= r.value.0
      && PatternAt(s, r.value.0, r.value.1)
      && (forall a :: i <= a < r.value.0 ==> !MatchesAt(s, a))
      && (forall e :: PatternAt(s, r.value.0, e) ==> e <= r.value.1)
    decreases |s| - i
  {
    MatchAtCorrect(s, i);
    match MatchAt(s, i)
    case Some(e) => Some((i, e))
    case None =>
      if i == |s| then None else SearchFrom(s, i + 1)
  }

  /** `s[a..e]` is the match `re.search` reports: it starts at the leftmost
      position where the pattern matches and is the longest match there. */
  ghost predicate LeftmostLongest(s: string, a: int, e: int)
  {
    && PatternAt(s, a, e)
    && (forall a' :: 0 <= a' < a ==> !MatchesAt(s, a'))
    && (forall e' :: PatternAt(s, a, e') ==> e' <= e)
  }

  /** `extract_price_fallback(text)`: the leftmost match, verbatim, or None. */
  function ExtractPriceFallback(text: string): (r: Option<string>)
    ensures r.None? <==> forall a :: !MatchesAt(text, a)
    ensures r.Some? ==> |r.value| >= 2 && IsCurrencySymbol(r.value[0])
    ensures r.Some? ==> exists a, e :: PatternAt(text, a, e) && r.value == text[a..e]
    ensures r.Some? ==> exists a, e :: LeftmostLongest(text, a, e) && r.value == text[a..e]
  {
    match SearchFrom(text, 0)
    case None =>
      assert forall a :: a < 0 ==> !MatchesAt(text, a);
      None
    case Some((a, e)) =>
      PatternAtLength(text, a, e);
      assert MatchesAt(text, a);
      assert text[a..e][0] == text[a];
      Some(text[a..e])
  }

  /** The reported match is determined by the text: any leftmost-longest
      match is the one returned. */
  lemma FallbackIsLeftmostLongest(text: string, a: int, e: int)
    requires LeftmostLongest(text, a, e)
    ensures ExtractPriceFallback(text) == Some(text[a..e])
  {
    assert MatchesAt(text, a);
    var r := SearchFrom(text, 0);
    var a', e' := r.value.0, r.value.1;
    assert MatchesAt(text, a');
    assert a == a';
    assert e == e';
  }
}

module PriceFallbackExample {
  import opened Wrappers
  import opened Text
  import opened PriceFallback

  const Sample := "Now only ₹2,499.00 — limited stock"

  lemma SampleMatches()
    ensures PatternAt(Sample, 9, 18)
  {
    var s := Sample;
    assert s[9] == '₹' && s[10] == '2' && s[11] == ',' && s[15] == '.';
    assert FracFrom(s, 15, 18);
    assert TailFrom(s, 15, 18);
    assert AllDigits(s, 12, 15);
    assert TailFrom(s, 11, 18);
    assert DigitsThenTail(s, 10, 1, 18);
  }

  lemma SampleScan()
    ensures MatchAt(Sample, 9) == Some(18)
  {
    SampleBody();
    SampleGroups();
    SampleFraction();
  }

  lemma SampleBody()
    ensures BodyStart(Sample, 9) == 10 && Digits(Sample, 10) == 1
  {
    assert Sample[10] == '2' && Sample[11] == ',';
  }

  lemma SampleGroups()
    ensures GroupsEnd(Sample, 11) == 15
  {
    assert Sample[11] == ',' && Sample[15] == '.';
    assert AllDigits(Sample, 12, 15);
    assert GroupsEnd(Sample, 15) == 15;
  }

  lemma SampleFraction()
    ensures FracEnd(Sample, 15) == 18
  {
    assert Sample[15] == '.' && Sample[16] == '0' && Sample[17] == '0' && Sample[18] == ' ';
    assert Digits(Sample, 18) == 0;
    assert Digits(Sample, 16) == 2;
  }

  lemma SampleNothingEarlier(a: int)
    requires 0 <= a < 9
    ensures !MatchesAt(Sample, a)
  {
    assert !IsCurrencySymbol(Sample[a]);
  }

  lemma SampleSlice()
    ensures Sample[9..18] == "₹2,499.00"
  {
    assert Sample == "Now only " + "₹2,499.00" + " — limited stock";
  }

  lemma SampleLeftmostLongest()
    ensures LeftmostLongest(Sample, 9, 18)
  {
    SampleMatches();
    SampleScan();
    forall a | 0 <= a < 9
      ensures !MatchesAt(Sample, a)
    {
      SampleNothingEarlier(a);
    }
    forall e | PatternAt(Sample, 9, e)
      ensures e <= 18
    {
      MatchAtLongest(Sample, 9, e);
    }
  }

  /** The worked example: the first price in the text is recovered with
      its currency symbol and thousands separator. */
  lemma RupeeExample()
    ensures ExtractPriceFallback(Sample) == Some("₹2,499.00")
  {
    SampleLeftmostLongest();
    FallbackIsLeftmostLongest(Sample, 9, 18);
    SampleSlice();
  }
}

=== FILE: product_schema.dfy ===
/** Mapping of the page's JSON-LD blocks onto the product record
    (`ProductCrawler.parse_product_schema`): a left fold over the blocks in
    document order in which every block typed "Product" overwrites fields,
    so the last Product block wins field by field. */
module ProductSchema {
  import opened JsonValue

  /** The product record. Every field holds whatever JSON value the block
      supplied, because the source copies values without converting them. */
  datatype ProductRecord = ProductRecord(
    name: Json,
    brand: Json,
    sku: Json,
    price: Json,
    currency: Json,
    availability: Json,
    rating: Json,
    reviewCount: Json)

  /** The record before any block is read: empty strings and nulls. */
  const EmptyProduct := ProductRecord(Str(""), Str(""), Str(""), Null, Str(""), Str(""), Null, Null)

  /** `isinstance(item, dict) and item.get("@type") == "Product"` */
  predicate IsProductBlock(item: Json)
  {
    item.Obj? && Get(item.fields, "@type", Null) == Str("Product")
  }

  /** The record after reading one block. */
  function Apply(rec: ProductRecord, item: Json): (r: ProductRecord)
    ensures !IsProductBlock(item) ==> r == rec
    ensures IsProductBlock(item) ==>
      && r.name == Get(item.fields, "name", Str(""))
      && r.sku == Get(item.fields, "sku", Str(""))
    // brand changes only when the block's brand is an object or a string
    ensures IsProductBlock(item) ==>
      var brand := Get(item.fields, "brand", Null);
      && (brand.Obj? ==> r.brand == Get(brand.fields, "name", Str("")))
      && (brand.Str? ==> r.brand == brand)
      && (!brand.Obj? && !brand.Str? ==> r.brand == rec.brand)
    // a missing "offers" defaults to {} and therefore clears the offer fields
    ensures IsProductBlock(item) ==>
      var offers := Get(item.fields, "offers", Obj(map[]));
      && (offers.Obj? ==>
            && r.price == Get(offers.fields, "price", Null)
            && r.currency == Get(offers.fields, "priceCurrency", Str(""))
            && r.availability == Get(offers.fields, "availability", Str("")))
      && (!offers.Obj? ==>
            r.price == rec.price && r.currency == rec.currency && r.availability == rec.availability)
    ensures IsProductBlock(item) ==>
      var rating := Get(item.fields, "aggregateRating", Obj(map[]));
      && (rating.Obj? ==>
            && r.rating == Get(rating.fields, "ratingValue", Null)
            && r.reviewCount == Get(rating.fields, "reviewCount", Null))
      && (!rating.Obj? ==> r.rating == rec.rating && r.reviewCount == rec.reviewCount)
  {
    if !IsProductBlock(item) then rec
    else
      var f := item.fields;
      var name := Get(f, "name", Str(""));
      var brandValue := Get(f, "brand", Null);
      var brand :=
        match brandValue
        case Obj(b) => Get(b, "name", Str(""))
        case Str(_) => brandValue
        case _ => rec.brand;
      var sku := Get(f, "sku", Str(""));
      var offers := Get(f, "offers", Obj(map[]));
      var price := if offers.Obj? then Get(offers.fields, "price", Null) else rec.price;
      var currency := if offers.Obj? then Get(offers.fields, "priceCurrency", Str("")) else rec.currency;
      var availability := if offers.Obj? then Get(offers.fields, "availability", Str("")) else rec.availability;
      var rating := Get(f, "aggregateRating", Obj(map[]));
      var ratingValue := if rating.Obj? then Get(rating.fields, "ratingValue", Null) else rec.rating;
      var reviewCount := if rating.Obj? then Get(rating.fields, "reviewCount", Null) else rec.reviewCount;
      ProductRecord(name, brand, sku, price, currency, availability, ratingValue, reviewCount)
  }

  /** Folds `Apply` over the blocks, starting from `rec`. */
  function ApplyAll(rec: ProductRecord, items: seq<Json>): ProductRecord
    decreases |items|
  {
    if |items| == 0 then rec else ApplyAll(Apply(rec, items[0]), items[1..])
  }

  /** `parse_product_schema(schema_data)` */
  function ParseProductSchema(items: seq<Json>): ProductRecord
  {
    ApplyAll(EmptyProduct, items)
  }

  /** Blocks that are not Product blocks leave the record alone. */
  lemma {:induction false} NonProductBlocksIgnored(rec: ProductRecord, items: seq<Json>)
    requires forall i :: 0 <= i < |items| ==> !IsProductBlock(items[i])
    ensures ApplyAll(rec, items) == rec
    decreases |items|
  {
    if |items| > 0 {
      NonProductBlocksIgnored(rec, items[1..]);
    }
  }

  /** With no Product block the result is the empty record. */
  lemma NoProductGivesEmpty(items: seq<Json>)
    requires forall i :: 0 <= i < |items| ==> !IsProductBlock(items[i])
    ensures ParseProductSchema(items) == EmptyProduct
  {
    NonProductBlocksIgnored(EmptyProduct, items);
  }

  /** Folding over a concatenation folds over each part in turn. */
  lemma {:induction false} ApplyAllAppend(rec: ProductRecord, xs: seq<Json>, ys: seq<Json>)
    ensures ApplyAll(rec, xs + ys) == ApplyAll(ApplyAll(rec, xs), ys)
    decreases |xs|
  {
    if |xs| > 0 {
      assert (xs + ys)[0] == xs[0];
      assert (xs + ys)[1..] == xs[1..] + ys;
      ApplyAllAppend(Apply(rec, xs[0]), xs[1..], ys);
    } else {
      assert xs + ys == ys;
    }
  }

  /** Last write wins: the result is the record after the last Product
      block, so `name` and `sku` are that block's, whatever came before. */
  lemma LastProductWins(items: seq<Json>, k: nat)
    requires k < |items| && IsProductBlock(items[k])
    requires forall j :: k < j < |items| ==> !IsProductBlock(items[j])
    ensures ParseProductSchema(items) == Apply(ApplyAll(EmptyProduct, items[..k]), items[k])
    ensures ParseProductSchema(items).name == Get(items[k].fields, "name", Str(""))
    ensures ParseProductSchema(items).sku == Get(items[k].fields, "sku", Str(""))
  {
    assert items == items[..k] + ([items[k]] + items[k + 1..]);
    ApplyAllAppend(EmptyProduct, items[..k], [items[k]] + items[k + 1..]);
    var before := ApplyAll(EmptyProduct, items[..k]);
    assert ([items[k]] + items[k + 1..])[1..] == items[k + 1..];
    NonProductBlocksIgnored(Apply(before, items[k]), items[k + 1..]);
  }
}

=== FILE: scoring.dfy ===
/** The scoring engine (`AIScoringEngine`): five rubrics that award named
    points, penalties, and the aggregate with its readiness band. Every
    rubric's points are listed in breakdown order; the unclamped sum never
    exceeds the rubric maximum, so the `min` clamp is the identity, and the
    maxima add up to 100, so the percentage is the final score itself. */
module Scoring {
  import opened Wrappers
  import opened JsonValue
  import opened Text
  import opened Seqs

  /** One breakdown item: a key and the points it earned. */
  datatype Entry = Entry(key: string, points: int)

  /** A breakdown dict, as its items in insertion order. */
  type Breakdown = seq<Entry>

  /** `sum(breakdown.values())` */
  function Total(b: Breakdown): int
  {
    if |b| == 0 then 0 else b[0].points + Total(b[1..])
  }

  function EntryKeys(b: Breakdown): (ks: seq<string>)
    ensures |ks| == |b|
    ensures forall i :: 0 <= i < |b| ==> ks[i] == b[i].key
  {
    if |b| == 0 then [] else [b[0].key] + EntryKeys(b[1..])
  }

  lemma {:induction false} TotalAppend(a: Breakdown, b: Breakdown)
    ensures Total(a + b) == Total(a) + Total(b)
    decreases |a|
  {
    if |a| == 0 {
      assert a + b == b;
    } else {
      assert (a + b)[1..] == a[1..] + b;
      TotalAppend(a[1..], b);
    }
  }

  lemma EntryKeysAppend(a: Breakdown, b: Breakdown)
    ensures EntryKeys(a + b) == EntryKeys(a) + EntryKeys(b)
  {
  }

  function SumInts(xs: seq<int>): int
  {
    if |xs| == 0 then 0 else xs[0] + SumInts(xs[1..])
  }

  /** Each item earns between 0 and its own maximum. */
  predicate WithinWeights(b: Breakdown, weights: seq<int>)
  {
    |b| == |weights| && forall i :: 0 <= i < |b| ==> 0 <= b[i].points <= weights[i]
  }

  /** Each item earns nothing or its full weight. */
  predicate ZeroOrWeight(b: Breakdown, weights: seq<int>)
  {
    |b| == |weights| && forall i :: 0 <= i < |b| ==> b[i].points == 0 || b[i].points == weights[i]
  }

  /** A breakdown within its weights sums to at most the sum of the weights. */
  lemma {:induction false} TotalWithin(b: Breakdown, weights: seq<int>)
    requires WithinWeights(b, weights)
    ensures 0 <= Total(b) <= SumInts(weights)
    decreases |b|
  {
    if |b| > 0 {
      assert WithinWeights(b[1..], weights[1..]);
      TotalWithin(b[1..], weights[1..]);
    }
  }

  /** All-or-nothing items with non-negative weights are within them. */
  lemma ZeroOrWeightWithin(b: Breakdown, weights: seq<int>)
    requires ZeroOrWeight(b, weights)
    requires forall i :: 0 <= i < |weights| ==> weights[i] >= 0
    ensures WithinWeights(b, weights)
  {
  }

  /** A rubric's result: `{"score": min(sum, max), "max": max, "breakdown": ...}`. */
  datatype Rubric = Rubric(score: int, max: int, breakdown: Breakdown)

  /** `min(score, max)` */
  function Clamp(score: int, max: int): int
  {
    if score <= max then score else max
  }

  /** The content fields the engine reads. `featureCount` and `specCount`
      are `len(features)` and `len(specifications)`. */
  datatype ContentInput = ContentInput(
    wordCount: int,
    headings: seq<Json>,
    featureCount: nat,
    specCount: nat,
    images: seq<Json>,
    faq: Json)

  /** The parts of the crawl dict the engine reads. */
  datatype ScoreInput = ScoreInput(
    product: map<string, Json>,
    content: ContentInput,
    trust: map<string, Json>,
    schema: seq<Json>,
    meta: map<string, Json>)

  /** `bool(d.get(key))` */
  predicate Has(m: map<string, Json>, key: string)
  {
    Truthy(Get(m, key, Null))
  }

  /** `weight if earned else 0` */
  function Award(weight: nat, earned: bool): (p: int)
    ensures 0 <= p <= weight
  {
    if earned then weight else 0
  }

  /** All-or-nothing items: each key earns its weight when its condition
      holds and 0 otherwise. */
  function Awards(keys: seq<string>, weights: seq<nat>, earned: seq<bool>): (b: Breakdown)
    requires |keys| == |weights| == |earned|
    requires forall i :: 0 <= i < |weights| ==> weights[i] > 0
    ensures EntryKeys(b) == keys
    ensures ZeroOrWeight(b, weights) && WithinWeights(b, weights)
    ensures forall i :: 0 <= i < |b| ==> b[i].points == if earned[i] then weights[i] else 0
    ensures forall i :: 0 <= i < |b| ==> (b[i].points == weights[i] <==> earned[i])
  {
    if |keys| == 0 then []
    else [Entry(keys[0], Award(weights[0], earned[0]))] + Awards(keys[1..], weights[1..], earned[1..])
  }

  /** `[bool(m.get(k)) for k in keys]` */
  function HasEach(m: map<string, Json>, keys: seq<string>): (hs: seq<bool>)
    ensures |hs| == |keys|
    ensures forall i :: 0 <= i < |keys| ==> hs[i] == Has(m, keys[i])
  {
    if |keys| == 0 then [] else [Has(m, keys[0])] + HasEach(m, keys[1..])
  }

  /** The breakdown with the given keys and points, item by item. */
  function Zip(keys: seq<string>, points: seq<int>): (b: Breakdown)
    requires |keys| == |points|
    ensures |b| == |keys| && EntryKeys(b) == keys
    ensures forall i :: 0 <= i < |b| ==> b[i].points == points[i]
  {
    if |keys| == 0 then [] else [Entry(keys[0], points[0])] + Zip(keys[1..], points[1..])
  }

  // ------------------------------------------------------------------
  // Section 1: schema completeness
  // ------------------------------------------------------------------


  /** `t` splits at `k` into `\d+` and an optional `\.\d{1,2}`. */
  predicate AmountSplit(t: string, k: int)
  {
    && 1 <= k <= |t|
    && IsDigitString(t[..k])
    && (k == |t| || (t[k] == '.' && 2 <= |t| - k <= 3 && IsDigitString(t[k + 1..])))
  }

  predicate IsAmount(t: string)
  {
    exists k | 1 <= k <= |t| :: AmountSplit(t, k)
  }

  /** `re.match(r"^\d+(\.\d{1,2})?$", t)`; `$` also matches just before a
      final newline. */
  predicate PriceText(t: string)
  {
    IsAmount(t) || (|t| > 0 && t[|t| - 1] == '\n' && IsAmount(t[..|t| - 1]))
  }

  /** The price check applied to `str(product.get("price", ""))`. `str` of
      None, a boolean, a list or a dict starts with a letter, `[` or `{`,
      which the pattern rejects. */
  predicate PriceFormatOk(v: Json)
  {
    match v
    case Str(s) => PriceText(s)
    case Num(n) => PriceText(IntToString(n))
    case _ => false
  }

  /** An integer price earns the format bonus exactly when it is not
      negative. */
  lemma NumPriceFormat(n: int)
    ensures PriceFormatOk(Num(n)) <==> n >= 0
  {
    var t := IntToString(n);
    if n >= 0 {
      assert t[..|t|] == t;
      assert AmountSplit(t, |t|);
    } else {
      assert t[0] == '-';
      forall k | 1 <= k <= |t|
        ensures !AmountSplit(t, k)
      {
        assert t[..k][0] == t[0];
      }
      NegativeEndsInDigit(n);
      if |t| > 0 && t[|t| - 1] == '\n' {
        assert false;
      }
    }
  }

  lemma NegativeEndsInDigit(n: int)
    requires n < 0
    ensures IsDigit(IntToString(n)[|IntToString(n)| - 1])
  {
  }

  /** A price that starts with a currency symbol, as the crawler's fallback
      produces, never earns the format bonus. */
  lemma SymbolPriceHasNoBonus(s: string)
    requires |s| > 0 && !IsDigit(s[0]) && s[0] != '\n'
    ensures !PriceFormatOk(Str(s))
  {
    forall t, k | (t == s || t == s[..|s| - 1]) && 1 <= k <= |t|
      ensures !AmountSplit(t, k)
    {
      assert t[..k][0] == s[0];
    }
  }

  const SchemaKeys: seq<string> :=
    ["name", "price", "currency", "brand", "availability", "price_format_bonus", "schema_markup", "product_schema"]
  const SchemaWeights: seq<nat> := [4, 4, 2, 2, 2, 2, 2, 2]

  /** Some schema item is a dict (so `schema_types` is non-empty). */
  predicate HasDictItem(schema: seq<Json>)
  {
    exists i | 0 <= i < |schema| :: schema[i].Obj?
  }

  /** Some dict schema item has `"@type"` equal to "Product". */
  predicate HasProductType(schema: seq<Json>)
  {
    exists i | 0 <= i < |schema| :: schema[i].Obj? && Get(schema[i].fields, "@type", Str("")) == Str("Product")
  }

  /** The conditions of the eight schema items, in breakdown order: the
      five product fields, the price format, some dict item, and a dict
      item of type Product. */
  function SchemaEarned(inp: ScoreInput): (e: seq<bool>)
    ensures |e| == |SchemaKeys|
    ensures forall i :: 0 <= i < 5 ==> e[i] == Has(inp.product, SchemaKeys[i])
    ensures e[5] == PriceFormatOk(Get(inp.product, "price", Str("")))
    ensures e[6] == HasDictItem(inp.schema) && e[7] == HasProductType(inp.schema)
  {
    var p := inp.product;
    var nonEmpty := |inp.schema| > 0;
    var fields := HasEach(p, SchemaKeys[..5]);
    assert forall i :: 0 <= i < 5 ==> SchemaKeys[..5][i] == SchemaKeys[i];
    fields + [
      PriceFormatOk(Get(p, "price", Str(""))),
      nonEmpty && HasDictItem(inp.schema),
      nonEmpty && HasProductType(inp.schema)]
  }

  /** `score_schema()`: eight all-or-nothing items; the sum is at most 20.
      The first five items are product fields of the same name and earn
      their weight exactly when the field is truthy. */
  function ScoreSchema(inp: ScoreInput): (r: Rubric)
    ensures EntryKeys(r.breakdown) == SchemaKeys
    ensures ZeroOrWeight(r.breakdown, SchemaWeights)
    ensures forall i :: 0 <= i < 5 ==>
      (r.breakdown[i].points == SchemaWeights[i] <==> Has(inp.product, SchemaKeys[i]))
    ensures r.breakdown[5].points == 2 <==> PriceFormatOk(Get(inp.product, "price", Str("")))
    ensures r.breakdown[6].points == 2 <==> HasDictItem(inp.schema)
    ensures r.breakdown[7].points == 2 <==> HasProductType(inp.schema)
    ensures r.max == 20 && r.score == Total(r.breakdown) && 0 <= r.score <= 20
  {
    var earned := SchemaEarned(inp);
    var b := Awards(SchemaKeys, SchemaWeights, earned);
    assert SchemaWeights[5] == 2 && SchemaWeights[6] == 2 && SchemaWeights[7] == 2;
    TotalWithin(b, SchemaWeights);
    assert SumInts(SchemaWeights) == 20;
    Rubric(Clamp(Total(b), 20), 20, b)
  }

  // ------------------------------------------------------------------
  // Section 2: entity clarity
  // ------------------------------------------------------------------

  const EntityKeys: seq<string> := ["name", "brand", "sku", "category", "gtin"]
  const EntityWeights: seq<nat> := [4, 3, 2, 2, 2]

  /** `name_quality`: 2 for four or more words, 1 for two or three, else 0. */
  function NameQuality(name: string): (q: int)
    ensures 0 <= q <= 2
    ensures q == 2 <==> |Words(name)| >= 4
    ensures q == 1 <==> 2 <= |Words(name)| < 4
    ensures q == 0 <==> |Words(name)| < 2
  {
    var n := |Words(name)|;
    if n >= 4 then 2 else if n >= 2 then 1 else 0
  }

  /** More words never lower the name quality. */
  lemma NameQualityMonotone(a: string, b: string)
    requires |Words(a)| <= |Words(b)|
    ensures NameQuality(a) <= NameQuality(b)
  {
  }

  /** The five all-or-nothing entity items; they add up to at most 13. */
  function EntityBase(product: map<string, Json>): (b: Breakdown)
    ensures EntryKeys(b) == EntityKeys && ZeroOrWeight(b, EntityWeights)
    ensures forall i :: 0 <= i < 5 ==> (b[i].points == EntityWeights[i] <==> Has(product, EntityKeys[i]))
    ensures 0 <= Total(b) <= 13
  {
    var b := Awards(EntityKeys, EntityWeights, HasEach(product, EntityKeys));
    TotalWithin(b, EntityWeights);
    assert SumInts(EntityWeights) == 13;
    b
  }

  /** `score_entity_clarity()`. A truthy name that is not a string has no
      `split`, and the source raises there; that is the error case. The
      `name_quality` item is present exactly when the name is truthy. */
  function ScoreEntity(product: map<string, Json>): (r: Result<Rubric>)
    ensures var name := Get(product, "name", Str(""));
      r.Err? <==> Truthy(name) && !name.Str?
    ensures r.Ok? ==>
      var name := Get(product, "name", Str(""));
      var b := r.value.breakdown;
      && EntryKeys(b) == EntityKeys + (if Truthy(name) then ["name_quality"] else [])
      && ZeroOrWeight(b[..5], EntityWeights)
      && (forall i :: 0 <= i < 5 ==> (b[i].points == EntityWeights[i] <==> Has(product, EntityKeys[i])))
      && (Truthy(name) ==> b[5].points == NameQuality(name.s))
    ensures r.Ok? ==> r.value.max == 15 && r.value.score == Total(r.value.breakdown) && 0 <= r.value.score <= 15
  {
    var name := Get(product, "name", Str(""));
    if Truthy(name) && !name.Str? then
      Err("AttributeError: the product name has no split()")
    else
      var base := EntityBase(product);
      var quality := if Truthy(name) then [Entry("name_quality", NameQuality(name.s))] else [];
      var b := base + quality;
      assert b[..5] == base;
      assert forall i :: 0 <= i < 5 ==> b[i] == base[i];
      TotalAppend(base, quality);
      EntryKeysAppend(base, quality);
      Ok(Rubric(Clamp(Total(b), 15), 15, b))
  }

  // ------------------------------------------------------------------
  // Section 3: content depth
  // ------------------------------------------------------------------

  function WordCountPoints(n: int): (p: int)
    ensures 0 <= p <= 8
  {
    if n > 1500 then 8 else if n > 800 then 6 else if n > 400 then 4 else if n > 150 then 2 else 0
  }

  function HeadingPoints(n: nat): (p: int)
    ensures 0 <= p <= 4
  {
    if n >= 8 then 4 else if n >= 4 then 2 else if n >= 1 then 1 else 0
  }

  function FeaturePoints(n: nat): (p: int)
    ensures 0 <= p <= 4
  {
    if n >= 6 then 4 else if n >= 3 then 2 else if n >= 1 then 1 else 0
  }

  function SpecPoints(n: nat): (p: int)
    ensures 0 <= p <= 5
  {
    if n >= 8 then 5 else if n >= 4 then 3 else if n >= 1 then 1 else 0
  }

  /** The tiers are monotone: more never earns less. */
  lemma ContentTiersMonotone(a: nat, b: nat)
    requires a <= b
    ensures WordCountPoints(a) <= WordCountPoints(b)
    ensures HeadingPoints(a) <= HeadingPoints(b)
    ensures FeaturePoints(a) <= FeaturePoints(b)
    ensures SpecPoints(a) <= SpecPoints(b)
  {
  }

  /** Some image is a dict with a truthy `"alt"`. */
  predicate HasImageWithAlt(images: seq<Json>)
  {
    exists i | 0 <= i < |images| :: images[i].Obj? && Has(images[i].fields, "alt")
  }

  const ContentKeys: seq<string> := ["word_count", "headings", "features", "specifications", "image_alt_text", "faq"]
  const ContentMaxes: seq<nat> := [8, 4, 4, 5, 2, 2]

  /** The points of the six content items, in breakdown order, each
      within its maximum. */
  function ContentPoints(c: ContentInput): (ps: seq<int>)
    ensures |ps| == |ContentKeys|
    ensures forall i :: 0 <= i < |ps| ==> 0 <= ps[i] <= ContentMaxes[i]
    ensures ps[0] == WordCountPoints(c.wordCount) && ps[1] == HeadingPoints(|c.headings|)
    ensures ps[2] == FeaturePoints(c.featureCount) && ps[3] == SpecPoints(c.specCount)
    ensures ps[4] == Award(2, HasImageWithAlt(c.images)) && ps[5] == Award(2, Truthy(c.faq))
  {
    [WordCountPoints(c.wordCount),
     HeadingPoints(|c.headings|),
     FeaturePoints(c.featureCount),
     SpecPoints(c.specCount),
     Award(2, HasImageWithAlt(c.images)),
     Award(2, Truthy(c.faq))]
  }

  /** `score_content_depth()`: four tiered items and two all-or-nothing
      ones; the sum is at most 25. */
  function ScoreContent(c: ContentInput): (r: Rubric)
    ensures EntryKeys(r.breakdown) == ContentKeys
    ensures WithinWeights(r.breakdown, ContentMaxes)
    ensures r.breakdown[0].points == WordCountPoints(c.wordCount)
    ensures r.breakdown[1].points == HeadingPoints(|c.headings|)
    ensures r.breakdown[2].points == FeaturePoints(c.featureCount)
    ensures r.breakdown[3].points == SpecPoints(c.specCount)
    ensures r.breakdown[4].points == Award(2, HasImageWithAlt(c.images))
    ensures r.breakdown[5].points == Award(2, Truthy(c.faq))
    ensures r.max == 25 && r.score == Total(r.breakdown) && 0 <= r.score <= 25
  {
    var b := Zip(ContentKeys, ContentPoints(c));
    TotalWithin(b, ContentMaxes);
    assert SumInts(ContentMaxes) == 25;
    Rubric(Clamp(Total(b), 25), 25, b)
  }

  /** Raising the word, heading, feature or spec count never lowers the
      content score. */
  lemma ContentScoreMonotone(c: ContentInput, d: ContentInput)
    requires c.wordCount <= d.wordCount && |c.headings| <= |d.headings|
    requires c.featureCount <= d.featureCount && c.specCount <= d.specCount
    requires c.images == d.images && c.faq == d.faq
    ensures ScoreContent(c).score <= ScoreContent(d).score
  {
    var bc := ScoreContent(c).breakdown;
    var bd := ScoreContent(d).breakdown;
    ContentTiersMonotone(c.featureCount, d.featureCount);
    ContentTiersMonotone(c.specCount, d.specCount);
    ContentTiersMonotone(|c.headings|, |d.headings|);
    assert WordCountPoints(c.wordCount) <= WordCountPoints(d.wordCount);
    TotalPointwise(bc, bd);
  }

  /** Item-wise smaller points give a smaller total. */
  lemma {:induction false} TotalPointwise(a: Breakdown, b: Breakdown)
    requires |a| == |b|
    requires forall i :: 0 <= i < |a| ==> a[i].points <= b[i].points
    ensures Total(a) <= Total(b)
    decreases |a|
  {
    if |a| > 0 {
      TotalPointwise(a[1..], b[1..]);
    }
  }

  // ------------------------------------------------------------------
  // Section 4: trust signals
  // ------------------------------------------------------------------

  /** `weighted_signals`, in insertion order. */
  const TrustSignals: seq<(string, int)> := [
    ("has_return_policy", 3),
    ("has_warranty_info", 3),
    ("has_shipping_info", 2),
    ("mentions_secure_payment", 2),
    ("has_contact_page", 2),
    ("mentions_reviews", 3),
    ("uses_https", 1)]

  const TrustKeys: seq<string> :=
    ["has_return_policy", "has_warranty_info", "has_shipping_info", "mentions_secure_payment",
     "has_contact_page", "mentions_reviews", "uses_https"]
  const TrustWeights: seq<nat> := [3, 3, 2, 2, 2, 3, 1]

  /** `int(value) if str(value).isdigit() else 0` */
  function ReviewCount(value: Json): nat
  {
    match value
    case Num(n) => if n >= 0 then n else 0
    case Str(s) => if |s| > 0 && IsDigitString(s) then DecimalValue(s) else 0
    case _ => 0
  }

  /** The points of the `reviews_count` branch. */
  function ReviewsCountPoints(weight: int, value: Json): int
  {
    var count := ReviewCount(value);
    if count >= 100 then weight
    else if count >= 20 then weight - 1
    else if count >= 5 then weight - 2
    else 1
  }

  /** The points one weighted signal earns. */
  function TrustEntry(trust: map<string, Json>, signal: string, weight: int): Entry
  {
    var value := Get(trust, signal, Null);
    if Truthy(value) then
      if signal == "reviews_count" then Entry(signal, ReviewsCountPoints(weight, value))
      else Entry(signal, weight)
    else Entry(signal, 0)
  }

  /** The weighted signals are the keys with their weights, and none is
      named `reviews_count` (whose 13 characters no key has). */
  lemma TrustTable()
    ensures |TrustSignals| == |TrustKeys| == |TrustWeights|
    ensures forall i :: 0 <= i < |TrustSignals| ==>
      TrustSignals[i] == (TrustKeys[i], TrustWeights[i]) && TrustKeys[i] != "reviews_count"
  {
  }

  /** One entry per weighted signal, in table order. */
  function TrustEntries(trust: map<string, Json>, signals: seq<(string, int)>): (b: Breakdown)
    ensures |b| == |signals|
    ensures forall i :: 0 <= i < |b| ==> b[i] == TrustEntry(trust, signals[i].0, signals[i].1)
  {
    if |signals| == 0 then []
    else [TrustEntry(trust, signals[0].0, signals[0].1)] + TrustEntries(trust, signals[1..])
  }

  /** A table of signals none of which is `reviews_count`, each with a
      positive weight, scores like all-or-nothing awards. */
  lemma {:induction false} EntriesAreAwards(trust: map<string, Json>, signals: seq<(string, int)>,
                                            keys: seq<string>, weights: seq<nat>)
    requires |signals| == |keys| == |weights|
    requires forall i :: 0 <= i < |signals| ==>
      signals[i] == (keys[i], weights[i]) && keys[i] != "reviews_count" && weights[i] > 0
    ensures TrustEntries(trust, signals) == Awards(keys, weights, HasEach(trust, keys))
    decreases |signals|
  {
    if |signals| > 0 {
      EntriesAreAwards(trust, signals[1..], keys[1..], weights[1..]);
      assert HasEach(trust, keys)[1..] == HasEach(trust, keys[1..]);
    }
  }

  /** `score_trust()`. The `reviews_count` branch is unreachable because no
      weighted signal has that name, so every signal earns its full weight
      when truthy and 0 otherwise; the sum is at most 16. */
  function TrustRubric(trust: map<string, Json>): (r: Rubric)
    ensures EntryKeys(r.breakdown) == TrustKeys
    ensures ZeroOrWeight(r.breakdown, TrustWeights)
    ensures forall i :: 0 <= i < |r.breakdown| ==>
      (r.breakdown[i].points == TrustWeights[i] <==> Has(trust, TrustKeys[i]))
    ensures r.max == 20 && r.score == Total(r.breakdown) && 0 <= r.score <= 16
  {
    var b := TrustEntries(trust, TrustSignals);
    TrustTable();
    EntriesAreAwards(trust, TrustSignals, TrustKeys, TrustWeights);
    TotalWithin(b, TrustWeights);
    assert SumInts(TrustWeights) == 16;
    Rubric(Clamp(Total(b), 20), 20, b)
  }

  /** A breakdown that holds, item by item, the entries of a signal table
      is that table's entries. */
  lemma EntriesByIndex(trust: map<string, Json>, signals: seq<(string, int)>, b: Breakdown)
    requires |b| == |signals|
    requires forall j :: 0 <= j < |b| ==> b[j] == TrustEntry(trust, signals[j].0, signals[j].1)
    ensures b == TrustEntries(trust, signals)
  {
  }

  /** The loop of `score_trust()` over the weighted signals, in table
      order: it computes the rubric above, so each signal earns its weight
      exactly when truthy. */
  method ScoreTrust(trust: map<string, Json>) returns (r: Rubric)
    ensures r == TrustRubric(trust)
    ensures forall i :: 0 <= i < |r.breakdown| ==>
      (r.breakdown[i].points == TrustWeights[i] <==> Has(trust, TrustKeys[i]))
  {
    var signals := TrustSignals;
    var breakdown: Breakdown := [];
    for i := 0 to |signals|
      invariant |breakdown| == i
      invariant forall j :: 0 <= j < i ==> breakdown[j] == TrustEntry(trust, signals[j].0, signals[j].1)
    {
      var (signal, weight) := signals[i];
      breakdown := breakdown + [TrustEntry(trust, signal, weight)];
    }
    EntriesByIndex(trust, signals, breakdown);
    var score := Total(breakdown);
    r := Rubric(if score <= 20 then score else 20, 20, breakdown);
  }

  // ------------------------------------------------------------------
  // Section 5: AI extractability
  // ------------------------------------------------------------------

  /** `tag in [h.get("level") for h in headings if isinstance(h, dict)]` */
  predicate HasHeadingLevel(headings: seq<Json>, tag: string)
  {
    exists i | 0 <= i < |headings| :: headings[i].Obj? && Get(headings[i].fields, "level", Null) == Str(tag)
  }

  function HierarchyPoints(headings: seq<Json>): (p: int)
    ensures 0 <= p <= 2
  {
    if HasHeadingLevel(headings, "h1") && HasHeadingLevel(headings, "h2") then 2
    else if |headings| > 0 then 1
    else 0
  }

  function SpecsTablePoints(n: nat): (p: int)
    ensures 0 <= p <= 4
  {
    if n >= 5 then 4 else if n >= 1 then 2 else 0
  }

  const ExtractKeys: seq<string> :=
    ["schema_present", "heading_hierarchy", "specs_table", "meta_title", "meta_description", "canonical_url", "hreflang"]
  const ExtractMaxes: seq<nat> := [4, 2, 4, 2, 2, 2, 4]
  /** The metadata keys behind the last four extractability items. */
  const MetaKeys: seq<string> := ["title", "description", "canonical", "hreflang"]

  /** The points of the seven extractability items, in breakdown order,
      each within its maximum. */
  function ExtractPoints(inp: ScoreInput): (ps: seq<int>)
    ensures |ps| == |ExtractKeys|
    ensures forall i :: 0 <= i < |ps| ==> 0 <= ps[i] <= ExtractMaxes[i]
    ensures ps[0] == Award(4, |inp.schema| > 0)
    ensures ps[1] == HierarchyPoints(inp.content.headings)
    ensures ps[2] == SpecsTablePoints(inp.content.specCount)
    ensures forall i :: 3 <= i < 7 ==> ps[i] == Award(ExtractMaxes[i], Has(inp.meta, MetaKeys[i - 3]))
  {
    var m := inp.meta;
    [Award(4, |inp.schema| > 0),
     HierarchyPoints(inp.content.headings),
     SpecsTablePoints(inp.content.specCount),
     Award(2, Has(m, "title")),
     Award(2, Has(m, "description")),
     Award(2, Has(m, "canonical")),
     Award(4, Has(m, "hreflang"))]
  }

  /** `score_extractability()`; the sum is at most 20. The last four
      items earn their weight exactly when the page metadata has a truthy
      title, description, canonical link or hreflang. */
  function ScoreExtractability(inp: ScoreInput): (r: Rubric)
    ensures EntryKeys(r.breakdown) == ExtractKeys
    ensures WithinWeights(r.breakdown, ExtractMaxes)
    ensures r.breakdown[0].points == Award(4, |inp.schema| > 0)
    ensures r.breakdown[1].points == HierarchyPoints(inp.content.headings)
    ensures r.breakdown[2].points == SpecsTablePoints(inp.content.specCount)
    ensures forall i :: 3 <= i < 7 ==> r.breakdown[i].points == Award(ExtractMaxes[i], Has(inp.meta, MetaKeys[i - 3]))
    ensures r.max == 20 && r.score == Total(r.breakdown) && 0 <= r.score <= 20
  {
    var b := Zip(ExtractKeys, ExtractPoints(inp));
    TotalWithin(b, ExtractMaxes);
    assert SumInts(ExtractMaxes) == 20;
    Rubric(Clamp(Total(b), 20), 20, b)
  }

  // ------------------------------------------------------------------
  // Penalties, band and aggregate
  // ------------------------------------------------------------------

  /** The items whose condition holds, in table order. With distinct keys,
      a key is present exactly when its condition holds. */
  function Select(keys: seq<string>, points: seq<int>, holds: seq<bool>): (p: Breakdown)
    requires |keys| == |points| == |holds|
    requires NoDuplicates(keys)
    requires forall i :: 0 <= i < |points| ==> points[i] < 0
    ensures forall i :: 0 <= i < |p| ==> p[i].points < 0
    ensures forall k :: k in EntryKeys(p) ==> k in keys
    ensures forall i :: 0 <= i < |keys| ==> (keys[i] in EntryKeys(p) <==> holds[i])
    ensures SumInts(points) <= Total(p) <= 0
  {
    if |keys| == 0 then []
    else
      var rest := Select(keys[1..], points[1..], holds[1..]);
      assert keys[0] !in keys[1..];
      var p := if holds[0] then [Entry(keys[0], points[0])] + rest else rest;
      assert EntryKeys(p) == (if holds[0] then [keys[0]] else []) + EntryKeys(rest);
      assert forall i :: 1 <= i < |keys| ==> keys[i] == keys[1..][i - 1] && holds[i] == holds[1..][i - 1];
      p
  }

  /** The entries `Select` keeps are exactly the table rows whose condition
      holds, each with its own points. */
  lemma {:induction false} SelectEntries(keys: seq<string>, points: seq<int>, holds: seq<bool>)
    requires |keys| == |points| == |holds|
    requires NoDuplicates(keys)
    requires forall i :: 0 <= i < |points| ==> points[i] < 0
    ensures forall e :: e in Select(keys, points, holds) ==>
      exists i :: 0 <= i < |keys| && e == Entry(keys[i], points[i]) && holds[i]
    ensures forall i :: 0 <= i < |keys| && holds[i] ==> Entry(keys[i], points[i]) in Select(keys, points, holds)
    ensures NoDuplicates(EntryKeys(Select(keys, points, holds)))
    decreases |keys|
  {
    if |keys| > 0 {
      assert keys[0] !in keys[1..];
      SelectEntries(keys[1..], points[1..], holds[1..]);
      var rest := Select(keys[1..], points[1..], holds[1..]);
      assert keys[0] !in EntryKeys(rest);
      forall e | e in Select(keys, points, holds)
        ensures exists i :: 0 <= i < |keys| && e == Entry(keys[i], points[i]) && holds[i]
      {
        if e in rest {
          var j :| 0 <= j < |keys| - 1 && e == Entry(keys[1..][j], points[1..][j]) && holds[1..][j];
          assert e == Entry(keys[j + 1], points[j + 1]) && holds[j + 1];
        } else {
          assert e == Entry(keys[0], points[0]) && holds[0];
        }
      }
      forall i | 0 <= i < |keys| && holds[i]
        ensures Entry(keys[i], points[i]) in Select(keys, points, holds)
      {
        if i > 0 {
          assert keys[1..][i - 1] == keys[i] && points[1..][i - 1] == points[i] && holds[1..][i - 1];
        }
      }
    }
  }

  const PenaltyKeys: seq<string> := ["missing_price", "missing_product_name", "no_schema_markup", "thin_content"]
  const PenaltyPoints: seq<int> := [-5, -10, -5, -8]

  /** The sum of the points whose condition holds. */
  function SumWhere(points: seq<int>, holds: seq<bool>): int
    requires |points| == |holds|
  {
    if |points| == 0 then 0
    else (if holds[0] then points[0] else 0) + SumWhere(points[1..], holds[1..])
  }

  /** `Select` keeps each row at most once, so its total is the sum of the
      points whose condition holds. */
  lemma {:induction false} SelectTotal(keys: seq<string>, points: seq<int>, holds: seq<bool>)
    requires |keys| == |points| == |holds|
    requires NoDuplicates(keys)
    requires forall i :: 0 <= i < |points| ==> points[i] < 0
    ensures Total(Select(keys, points, holds)) == SumWhere(points, holds)
    decreases |keys|
  {
    if |keys| > 0 {
      SelectTotal(keys[1..], points[1..], holds[1..]);
    }
  }

  /** Over the penalty table, that sum is -5, -10, -5 and -8 for the
      conditions that hold. */
  lemma PenaltyTotal(holds: seq<bool>)
    requires |holds| == 4
    ensures SumWhere(PenaltyPoints, holds) ==
      (if holds[0] then -5 else 0) + (if holds[1] then -10 else 0)
      + (if holds[2] then -5 else 0) + (if holds[3] then -8 else 0)
  {
    var n1, n2, n3 := PenaltyPoints[1..], PenaltyPoints[2..], PenaltyPoints[3..];
    assert n1[1..] == n2 && n2[1..] == n3 && n3[1..] == [];
    assert holds[1..][1..] == holds[2..] && holds[2..][1..] == holds[3..];
    assert SumWhere(n3, holds[3..]) == (if holds[3] then -8 else 0);
    assert SumWhere(n2, holds[2..]) == (if holds[2] then -5 else 0) + SumWhere(n3, holds[3..]);
    assert SumWhere(n1, holds[1..]) == (if holds[1] then -10 else 0) + SumWhere(n2, holds[2..]);
    assert SumWhere(PenaltyPoints, holds) == (if holds[0] then -5 else 0) + SumWhere(n1, holds[1..]);
  }

  /** `_compute_penalties()`: a key is present exactly when its condition
      holds, every penalty is negative, and they add up to between -28
      and 0. */
  function Penalties(inp: ScoreInput): (p: Breakdown)
    ensures forall i :: 0 <= i < |p| ==> p[i].points < 0
    ensures "missing_price" in EntryKeys(p) <==> !Has(inp.product, "price")
    ensures "missing_product_name" in EntryKeys(p) <==> !Has(inp.product, "name")
    ensures "no_schema_markup" in EntryKeys(p) <==> |inp.schema| == 0
    ensures "thin_content" in EntryKeys(p) <==> inp.content.wordCount < 100
    ensures forall e :: e in p ==> e.key in PenaltyKeys
    ensures Entry("missing_price", -5) in p <==> !Has(inp.product, "price")
    ensures Entry("missing_product_name", -10) in p <==> !Has(inp.product, "name")
    ensures Entry("no_schema_markup", -5) in p <==> |inp.schema| == 0
    ensures Entry("thin_content", -8) in p <==> inp.content.wordCount < 100
    ensures NoDuplicates(EntryKeys(p))
    ensures Total(p) == (if !Has(inp.product, "price") then -5 else 0)
      + (if !Has(inp.product, "name") then -10 else 0)
      + (if |inp.schema| == 0 then -5 else 0)
      + (if inp.content.wordCount < 100 then -8 else 0)
    ensures -28 <= Total(p) <= 0
  {
    assert NoDuplicates(PenaltyKeys);
    var holds := [!Has(inp.product, "price"), !Has(inp.product, "name"), |inp.schema| == 0, inp.content.wordCount < 100];
    assert SumInts(PenaltyPoints) == -28;
    var p := Select(PenaltyKeys, PenaltyPoints, holds);
    SelectTotal(PenaltyKeys, PenaltyPoints, holds);
    PenaltyTotal(holds);
    SelectEntries(PenaltyKeys, PenaltyPoints, holds);
    assert PenaltyKeys[0] in EntryKeys(p) <==> holds[0];
    assert PenaltyKeys[1] in EntryKeys(p) <==> holds[1];
    assert PenaltyKeys[2] in EntryKeys(p) <==> holds[2];
    assert PenaltyKeys[3] in EntryKeys(p) <==> holds[3];
    p
  }

  const BandLabels: seq<string> := [
    "Critical — Not AI-Ready",
    "Poor — Significant Issues",
    "Fair — Needs Improvement",
    "Good — Minor Gaps",
    "Excellent — AI/GEO Ready"]

  /** `_readiness_band(pct)`: a top-down step with inclusive lower bounds. */
  function ReadinessBand(pct: real): (band: string)
    ensures band in BandLabels
    ensures band == BandLabels[4] <==> pct >= 85.0
    ensures band == BandLabels[3] <==> 70.0 <= pct < 85.0
    ensures band == BandLabels[2] <==> 50.0 <= pct < 70.0
    ensures band == BandLabels[1] <==> 30.0 <= pct < 50.0
    ensures band == BandLabels[0] <==> pct < 30.0
  {
    if pct >= 85.0 then "Excellent — AI/GEO Ready"
    else if pct >= 70.0 then "Good — Minor Gaps"
    else if pct >= 50.0 then "Fair — Needs Improvement"
    else if pct >= 30.0 then "Poor — Significant Issues"
    else "Critical — Not AI-Ready"
  }

  /** Position of a band from worst (0) to best (4). */
  function BandRank(band: string): (k: int)
    requires band in BandLabels
    ensures 0 <= k < |BandLabels| && BandLabels[k] == band
  {
    if band == BandLabels[0] then 0
    else if band == BandLabels[1] then 1
    else if band == BandLabels[2] then 2
    else if band == BandLabels[3] then 3
    else 4
  }

  /** A higher percentage never yields a worse band. */
  lemma BandMonotone(p: real, q: real)
    requires p <= q
    ensures BandRank(ReadinessBand(p)) <= BandRank(ReadinessBand(q))
  {
  }

  /** The result of `compute_score()`. */
  datatype ScoreReport = ScoreReport(
    schemaScore: int,
    entityScore: int,
    contentScore: int,
    trustScore: int,
    extractabilityScore: int,
    penalties: Breakdown,
    penaltyTotal: int,
    rawScore: int,
    finalScore: int,
    maxPossible: int,
    percentage: real,
    readinessBand: string,
    breakdowns: seq<(string, Breakdown)>)

  const SectionNames: seq<string> := ["schema", "entity", "content", "trust", "extractability"]

  function SectionNamesOf(bs: seq<(string, Breakdown)>): (ns: seq<string>)
    ensures |ns| == |bs|
    ensures forall i :: 0 <= i < |bs| ==> ns[i] == bs[i].0
  {
    if |bs| == 0 then [] else [bs[0].0] + SectionNamesOf(bs[1..])
  }

  /** What every report promises: the maxima add up to 100; the raw score
      is the sum of the section scores; the penalty total is the sum of the
      penalties; the final score is the raw score plus penalties, floored
      at 0, and at most 96; the percentage is the final score itself; the
      band is the band of that percentage; and the breakdowns are listed
      under the five section names in order. */
  predicate Consistent(s: ScoreReport)
  {
    && s.maxPossible == 100
    && s.rawScore == s.schemaScore + s.entityScore + s.contentScore + s.trustScore + s.extractabilityScore
    && s.penaltyTotal == Total(s.penalties)
    && s.finalScore == (if s.rawScore + s.penaltyTotal > 0 then s.rawScore + s.penaltyTotal else 0)
    && 0 <= s.finalScore <= 96
    && s.percentage == s.finalScore as real
    && s.readinessBand == ReadinessBand(s.percentage)
    && SectionNamesOf(s.breakdowns) == SectionNames
  }

  /** Out of a maximum of 100 the percentage is the score itself. */
  lemma PercentOfHundred(final: int)
    ensures (final as real / 100 as real) * 100.0 == final as real
  {
  }

  /** Penalties bring the score down, but never below 0, and the raw
      score is at most 96. */
  lemma FinalBounds(raw: int, penaltyTotal: int)
    requires 0 <= raw <= 96 && -28 <= penaltyTotal <= 0
    ensures var final := if 0 >= raw + penaltyTotal then 0 else raw + penaltyTotal;
      && final == (if raw + penaltyTotal > 0 then raw + penaltyTotal else 0)
      && 0 <= final <= 96
  {
  }

  /** The aggregate of five rubric results and the penalties. The maxima
      add up to 100, so the percentage is the final score itself; the final
      score is the raw score plus penalties, floored at 0. */
  function Aggregate(schema: Rubric, entity: Rubric, content: Rubric, trust: Rubric, extract: Rubric,
                     penalties: Breakdown): (s: ScoreReport)
    requires schema.max == 20 && 0 <= schema.score <= 20
    requires entity.max == 15 && 0 <= entity.score <= 15
    requires content.max == 25 && 0 <= content.score <= 25
    requires trust.max == 20 && 0 <= trust.score <= 16
    requires extract.max == 20 && 0 <= extract.score <= 20
    requires -28 <= Total(penalties) <= 0
    ensures Consistent(s) && s.penalties == penalties
    ensures s.breakdowns[0].1 == schema.breakdown && s.breakdowns[1].1 == entity.breakdown
      && s.breakdowns[2].1 == content.breakdown && s.breakdowns[3].1 == trust.breakdown
      && s.breakdowns[4].1 == extract.breakdown
    ensures s.schemaScore == schema.score && s.entityScore == entity.score && s.contentScore == content.score
      && s.trustScore == trust.score && s.extractabilityScore == extract.score
  {
    var raw := schema.score + entity.score + content.score + trust.score + extract.score;
    var penaltyTotal := Total(penalties);
    var maxScore := schema.max + entity.max + content.max + trust.max + extract.max;
    FinalBounds(raw, penaltyTotal);
    var final := if 0 >= raw + penaltyTotal then 0 else raw + penaltyTotal;
    PercentOfHundred(final);
    var pct := (final as real / maxScore as real) * 100.0;
    var breakdowns := [("schema", schema.breakdown), ("entity", entity.breakdown), ("content", content.breakdown),
                       ("trust", trust.breakdown), ("extractability", extract.breakdown)];
    ScoreReport(schema.score, entity.score, content.score, trust.score, extract.score,
                penalties, penaltyTotal, raw, final, maxScore, pct, ReadinessBand(pct), breakdowns)
  }

  /** `compute_score()`: fails exactly when the entity rubric does, and
      otherwise adds up the five section scores, applies the penalties
      with a floor at 0, and reports the band of the final score, which is
      also the percentage. */
  function ComputeScore(inp: ScoreInput): (r: Result<ScoreReport>)
    ensures r.Err? <==> ScoreEntity(inp.product).Err?
    ensures r.Ok? ==> Consistent(r.value)
  {
    var entity := ScoreEntity(inp.product);
    if entity.Err? then Err(entity.message)
    else
      Ok(Aggregate(ScoreSchema(inp), entity.value, ScoreContent(inp.content), TrustRubric(inp.trust),
                   ScoreExtractability(inp), Penalties(inp)))
  }

  /** The report's sections are the five rubrics and its penalties are
      `_compute_penalties()`. */
  lemma ComputeScoreSections(inp: ScoreInput)
    requires ComputeScore(inp).Ok?
    ensures var s := ComputeScore(inp).value;
      && s.schemaScore == ScoreSchema(inp).score
      && s.entityScore == ScoreEntity(inp.product).value.score
      && s.contentScore == ScoreContent(inp.content).score
      && s.trustScore == TrustRubric(inp.trust).score
      && s.extractabilityScore == ScoreExtractability(inp).score
      && s.penalties == Penalties(inp)
      && s.breakdowns[0].1 == ScoreSchema(inp).breakdown
      && s.breakdowns[1].1 == ScoreEntity(inp.product).value.breakdown
      && s.breakdowns[2].1 == ScoreContent(inp.content).breakdown
      && s.breakdowns[3].1 == TrustRubric(inp.trust).breakdown
      && s.breakdowns[4].1 == ScoreExtractability(inp).breakdown
  {
  }
}

=== FILE: seqs.dfy ===
/** Order-preserving de-duplication, the idiom
        seen = set(); out = []
        for x in xs: if x not in seen: seen.add(x); out.append(x)
    that the extractors use, with its defining properties. */
module Seqs {

  /** No two equal elements. */
  predicate NoDuplicates<T(==)>(xs: seq<T>)
  {
    forall i, j :: 0 <= i < j < |xs| ==> xs[i] != xs[j]
  }

  lemma NoDuplicatesSnoc<T>(xs: seq<T>, x: T)
    requires NoDuplicates(xs) && x !in xs
    ensures NoDuplicates(xs + [x])
  {
  }

  /** The first occurrences of the elements of `xs`, in order. */
  function Dedup<T(==)>(xs: seq<T>): (r: seq<T>)
    ensures NoDuplicates(r)
    ensures forall i :: 0 <= i < |r| ==> r[i] in xs
    ensures forall i :: 0 <= i < |xs| ==> xs[i] in r
    ensures |r| <= |xs|
  {
    if |xs| == 0 then []
    else
      var d := Dedup(xs[..|xs| - 1]);
      var x := xs[|xs| - 1];
      if x in d then d else d + [x]
  }

  /** Index of the first occurrence of `y` in `xs`. */
  function FirstIndex<T(==)>(xs: seq<T>, y: T): (k: nat)
    requires y in xs
    ensures k < |xs| && xs[k] == y && y !in xs[..k]
  {
    if xs[0] == y then 0 else 1 + FirstIndex(xs[1..], y)
  }

  lemma FirstIndexInPrefix<T>(xs: seq<T>, n: nat, y: T)
    requires n <= |xs| && y in xs[..n]
    ensures FirstIndex(xs, y) == FirstIndex(xs[..n], y)
  {
    var k := FirstIndex(xs[..n], y);
    var m := FirstIndex(xs, y);
    assert xs[..n][..k] == xs[..k];
  }

  /** De-duplication keeps first-seen order: elements come out in the order
      of their first occurrence in the input. */
  lemma DedupFirstSeenOrder<T>(xs: seq<T>)
    ensures forall i, j :: 0 <= i < j < |Dedup(xs)| ==>
      FirstIndex(xs, Dedup(xs)[i]) < FirstIndex(xs, Dedup(xs)[j])
  {
    forall i, j | 0 <= i < j < |Dedup(xs)|
      ensures FirstIndex(xs, Dedup(xs)[i]) < FirstIndex(xs, Dedup(xs)[j])
    {
      DedupOrderPair(xs, i, j);
    }
  }

  lemma {:induction false} DedupOrderPair<T>(xs: seq<T>, i: nat, j: nat)
    requires i < j < |Dedup(xs)|
    ensures FirstIndex(xs, Dedup(xs)[i]) < FirstIndex(xs, Dedup(xs)[j])
    decreases |xs|
  {
    var n := |xs| - 1;
    var init := xs[..n];
    var d := Dedup(init);
    assert Dedup(xs)[i] == d[i];
    FirstIndexInPrefix(xs, n, d[i]);
    if j < |d| {
      DedupOrderPair(init, i, j);
      assert Dedup(xs)[j] == d[j];
      FirstIndexInPrefix(xs, n, d[j]);
    } else {
      assert Dedup(xs)[j] == xs[n] && xs[n] !in d;
      assert xs[n] !in init;
      assert xs[..n] == init;
    }
  }
}

=== FILE: specifications.dfy ===
/** Specification-table extraction (`ProductCrawler.extract_specifications`).
    The parsed document is given as its tables in document order, each with
    whether it sits inside a nav or footer element and, per row, the
    stripped texts of its td/th cells. The result is an insertion-ordered
    dict from key to a string, or to the list of all values once a key
    repeats. */
module Specifications {
  import opened Seqs

  type Row = seq<string>

  datatype Table = Table(inNavigation: bool, rows: seq<Row>)

  /** A dict value: a single string, or the list a repeated key becomes. */
  datatype SpecValue = One(value: string) | Many(values: seq<string>)

  datatype SpecEntry = SpecEntry(key: string, value: SpecValue)

  /** The dict, as its items in insertion order. */
  type Specs = seq<SpecEntry>

  function Values(v: SpecValue): seq<string>
  {
    match v
    case One(x) => [x]
    case Many(vs) => vs
  }

  /** The length filters a key/value pair must pass. */
  predicate AcceptablePair(key: string, value: string)
  {
    !(|key| < 2 || |value| < 2) && !(|key| > 100 || |value| > 300)
  }

  /** The accepted pairs of a table's rows, in row order: two-cell rows whose
      texts pass the length filters. */
  function RowPairs(rows: seq<Row>): (ps: seq<(string, string)>)
    ensures forall i :: 0 <= i < |ps| ==> AcceptablePair(ps[i].0, ps[i].1)
  {
    if |rows| == 0 then []
    else
      var row := rows[|rows| - 1];
      RowPairs(rows[..|rows| - 1])
        + (if |row| == 2 && AcceptablePair(row[0], row[1]) then [(row[0], row[1])] else [])
  }

  /** Tables in navigation and tables with fewer than 2 rows are skipped. */
  function TablePairs(t: Table): seq<(string, string)>
  {
    if t.inNavigation || |t.rows| < 2 then [] else RowPairs(t.rows)
  }

  /** All accepted pairs of the document, in document order. */
  function AllPairs(tables: seq<Table>): (ps: seq<(string, string)>)
    ensures forall i :: 0 <= i < |ps| ==> AcceptablePair(ps[i].0, ps[i].1)
  {
    if |tables| == 0 then []
    else AllPairs(tables[..|tables| - 1]) + TablePairs(tables[|tables| - 1])
  }

  /** The keys of the pairs, in order, repeats included. */
  function PairKeys(ps: seq<(string, string)>): (ks: seq<string>)
    ensures |ks| == |ps|
    ensures forall i :: 0 <= i < |ps| ==> ks[i] == ps[i].0
  {
    if |ps| == 0 then [] else PairKeys(ps[..|ps| - 1]) + [ps[|ps| - 1].0]
  }

  /** The values paired with `key`, in order. */
  function ValuesFor(ps: seq<(string, string)>, key: string): seq<string>
  {
    if |ps| == 0 then []
    else
      var p := ps[|ps| - 1];
      ValuesFor(ps[..|ps| - 1], key) + (if p.0 == key then [p.1] else [])
  }

  function Keys(specs: Specs): (ks: seq<string>)
    ensures |ks| == |specs|
    ensures forall i :: 0 <= i < |specs| ==> ks[i] == specs[i].key
  {
    if |specs| == 0 then [] else Keys(specs[..|specs| - 1]) + [specs[|specs| - 1].key]
  }

  /** Position of `key` in the dict, if present. */
  function FindKey(specs: Specs, key: string): (k: int)
    ensures -1 <= k < |specs|
    ensures k == -1 <==> key !in Keys(specs)
    ensures k >= 0 ==> specs[k].key == key
  {
    if |specs| == 0 then -1
    else if specs[|specs| - 1].key == key then |specs| - 1
    else FindKey(specs[..|specs| - 1], key)
  }

  /** The values stored under `key`, or none. */
  function ValuesAt(specs: Specs, key: string): seq<string>
  {
    var k := FindKey(specs, key);
    if k == -1 then [] else Values(specs[k].value)
  }

  /** A list value holds at least two values, and the key and every value
      pass the length filters. */
  predicate EntryOk(e: SpecEntry)
  {
    && (e.value.Many? ==> |e.value.values| >= 2)
    && 2 <= |e.key| <= 100
    && forall j :: 0 <= j < |Values(e.value)| ==> 2 <= |Values(e.value)[j]| <= 300
  }

  /** Keys are unique and every entry is acceptable. */
  predicate WellFormed(specs: Specs)
  {
    && NoDuplicates(Keys(specs))
    && forall i :: 0 <= i < |specs| ==> EntryOk(specs[i])
  }

  /** A repeated key's value after one more row: a string becomes a
      two-element list, a list grows by one. */
  function Grow(v: SpecValue, value: string): (g: SpecValue)
    ensures g.Many?
    ensures Values(g) == Values(v) + [value]
  {
    match v
    case One(x) => Many([x, value])
    case Many(vs) => Many(vs + [value])
  }

  /** One row's effect on the dict:
        if key in specs: a list gets `value` appended, a string becomes
        `[old, value]`; otherwise `specs[key] = value`. */
  function Add(specs: Specs, key: string, value: string): (r: Specs)
    requires WellFormed(specs) && AcceptablePair(key, value)
    ensures WellFormed(r)
    ensures Keys(r) == if key in Keys(specs) then Keys(specs) else Keys(specs) + [key]
    ensures forall k :: ValuesAt(r, k) == ValuesAt(specs, k) + (if k == key then [value] else [])
  {
    var k := FindKey(specs, key);
    if k == -1 then
      AddNewKey(specs, key, value);
      specs + [SpecEntry(key, One(value))]
    else
      AddExistingKey(specs, k, value);
      specs[k := SpecEntry(key, Grow(specs[k].value, value))]
  }

  lemma AddNewKey(specs: Specs, key: string, value: string)
    requires WellFormed(specs) && AcceptablePair(key, value)
    requires key !in Keys(specs)
    ensures WellFormed(specs + [SpecEntry(key, One(value))])
    ensures Keys(specs + [SpecEntry(key, One(value))]) == Keys(specs) + [key]
    ensures forall k ::
      ValuesAt(specs + [SpecEntry(key, One(value))], k) == ValuesAt(specs, k) + (if k == key then [value] else [])
  {
    var e := SpecEntry(key, One(value));
    var r := specs + [e];
    assert r[..|specs|] == specs;
    assert Keys(r) == Keys(specs) + [key];
    AppendWellFormed(specs, e);
    forall k
      ensures ValuesAt(r, k) == ValuesAt(specs, k) + (if k == key then [value] else [])
    {
      AppendValues(specs, e, k);
    }
  }

  lemma AppendValues(specs: Specs, e: SpecEntry, k: string)
    requires e.key !in Keys(specs)
    ensures ValuesAt(specs + [e], k) == ValuesAt(specs, k) + (if k == e.key then Values(e.value) else [])
  {
    if k != e.key {
      FindKeyAfterAppend(specs, e, k);
    } else {
      assert FindKey(specs, k) == -1;
      assert (specs + [e])[|specs|] == e;
    }
  }

  lemma AppendWellFormed(specs: Specs, e: SpecEntry)
    requires WellFormed(specs) && e.value.One? && AcceptablePair(e.key, e.value.value)
    requires Keys(specs + [e]) == Keys(specs) + [e.key]
    requires e.key !in Keys(specs)
    ensures WellFormed(specs + [e])
  {
    NoDuplicatesSnoc(Keys(specs), e.key);
    var r := specs + [e];
    assert forall i :: 0 <= i < |specs| ==> r[i] == specs[i];
    assert EntryOk(e);
  }

  lemma AddExistingKey(specs: Specs, k: nat, value: string)
    requires WellFormed(specs) && k < |specs| && AcceptablePair(specs[k].key, value)
    ensures WellFormed(specs[k := SpecEntry(specs[k].key, Grow(specs[k].value, value))])
    ensures Keys(specs[k := SpecEntry(specs[k].key, Grow(specs[k].value, value))]) == Keys(specs)
    ensures forall key ::
      var r := specs[k := SpecEntry(specs[k].key, Grow(specs[k].value, value))];
      ValuesAt(r, key) == ValuesAt(specs, key) + (if key == specs[k].key then [value] else [])
  {
    var g := Grow(specs[k].value, value);
    var r := specs[k := SpecEntry(specs[k].key, g)];
    KeysAfterUpdate(specs, k, g);
    GrowOk(specs[k], value);
    forall key
      ensures ValuesAt(r, key) == ValuesAt(specs, key) + (if key == specs[k].key then [value] else [])
    {
      FindKeyAfterUpdate(specs, k, g, key);
    }
  }

  lemma GrowOk(e: SpecEntry, value: string)
    requires EntryOk(e) && 2 <= |value| <= 300
    ensures EntryOk(SpecEntry(e.key, Grow(e.value, value)))
  {
    var vs := Values(Grow(e.value, value));
    assert forall j :: 0 <= j < |vs| - 1 ==> vs[j] == Values(e.value)[j];
  }

  lemma KeysAfterUpdate(specs: Specs, k: nat, v: SpecValue)
    requires k < |specs|
    ensures Keys(specs[k := SpecEntry(specs[k].key, v)]) == Keys(specs)
  {
    var r := specs[k := SpecEntry(specs[k].key, v)];
    assert forall i :: 0 <= i < |r| ==> Keys(r)[i] == Keys(specs)[i];
  }

  lemma FindKeyAfterAppend(specs: Specs, e: SpecEntry, key: string)
    requires key != e.key
    ensures FindKey(specs + [e], key) == FindKey(specs, key)
  {
    assert (specs + [e])[..|specs|] == specs;
  }

  lemma FindKeyAfterUpdate(specs: Specs, k: nat, v: SpecValue, key: string)
    requires NoDuplicates(Keys(specs))
    requires k < |specs|
    ensures FindKey(specs[k := SpecEntry(specs[k].key, v)], key) == FindKey(specs, key)
  {
    KeysAfterUpdate(specs, k, v);
    var r := specs[k := SpecEntry(specs[k].key, v)];
    var f := FindKey(specs, key);
    var g := FindKey(r, key);
    if f != -1 && g != -1 {
      assert Keys(specs)[f] == Keys(specs)[g];
    }
  }

  /** The dict after reading the pairs in order. */
  function Accumulate(ps: seq<(string, string)>): (r: Specs)
    requires forall i :: 0 <= i < |ps| ==> AcceptablePair(ps[i].0, ps[i].1)
    ensures WellFormed(r)
    ensures Keys(r) == Dedup(PairKeys(ps))
  {
    if |ps| == 0 then []
    else
      var init := ps[..|ps| - 1];
      var p := ps[|ps| - 1];
      var acc := Accumulate(init);
      var r := Add(acc, p.0, p.1);
      KeysStep(ps, Keys(acc), Keys(r));
      r
  }

  /** Every key ends up with all of its values, in order. */
  lemma {:induction false} AccumulateValues(ps: seq<(string, string)>, k: string)
    requires forall i :: 0 <= i < |ps| ==> AcceptablePair(ps[i].0, ps[i].1)
    ensures ValuesAt(Accumulate(ps), k) == ValuesFor(ps, k)
    decreases |ps|
  {
    if |ps| > 0 {
      var init := ps[..|ps| - 1];
      AccumulateValues(init, k);
      var acc := Accumulate(init);
      ValuesStep(ps, ValuesAt(acc, k), ValuesAt(Accumulate(ps), k), k);
    }
  }

  /** One more pair extends the keys as `Dedup` does. */
  lemma KeysStep(ps: seq<(string, string)>, before: seq<string>, after: seq<string>)
    requires |ps| > 0
    requires before == Dedup(PairKeys(ps[..|ps| - 1]))
    requires after == if ps[|ps| - 1].0 in before then before else before + [ps[|ps| - 1].0]
    ensures after == Dedup(PairKeys(ps))
  {
    DedupStep(PairKeys(ps));
    assert PairKeys(ps)[..|ps| - 1] == PairKeys(ps[..|ps| - 1]);
  }

  /** One more pair extends a key's values as `ValuesFor` does. */
  lemma ValuesStep(ps: seq<(string, string)>, before: seq<string>, after: seq<string>, k: string)
    requires |ps| > 0
    requires before == ValuesFor(ps[..|ps| - 1], k)
    requires after == before + (if k == ps[|ps| - 1].0 then [ps[|ps| - 1].1] else [])
    ensures after == ValuesFor(ps, k)
  {
  }

  lemma DedupStep(xs: seq<string>)
    requires |xs| > 0
    ensures Dedup(xs) ==
      var d := Dedup(xs[..|xs| - 1]);
      if xs[|xs| - 1] in d then d else d + [xs[|xs| - 1]]
  {
  }

  /** `extract_specifications()`. Every key and value passes the length
      filters and keys come in order of first appearance. */
  function ExtractSpecifications(tables: seq<Table>): (r: Specs)
    ensures WellFormed(r)
    ensures Keys(r) == Dedup(PairKeys(AllPairs(tables)))
  {
    Accumulate(AllPairs(tables))
  }

  /** A key's values are all its accepted values in row order, so repeats
      are never lost. */
  lemma ExtractSpecificationsValues(tables: seq<Table>, k: string)
    ensures ValuesAt(ExtractSpecifications(tables), k) == ValuesFor(AllPairs(tables), k)
  {
    AccumulateValues(AllPairs(tables), k);
  }

  /** A key holds a single string exactly when it was accepted once. */
  lemma OneIffSingleValue(specs: Specs, i: nat)
    requires WellFormed(specs) && i < |specs|
    ensures specs[i].value.One? <==> |ValuesAt(specs, specs[i].key)| == 1
  {
    var k := FindKey(specs, specs[i].key);
    assert Keys(specs)[k] == Keys(specs)[i];
  }
}

=== FILE: text.dfy ===
/** String operations of Python's `str` that the analyser relies on:
    whitespace splitting and re-joining, prefix/suffix tests, substring
    search and slicing. Strings are sequences of Unicode scalar values. */
module Text {

  /** The characters `str.isspace()` accepts; `str.split()`, `str.strip()`
      and the regular-expression class `\s` all use this same set. */
  predicate IsSpace(c: char)
  {
    || ('\t' <= c <= '\r')
    || ('\U{1C}' <= c <= '\U{1F}')
    || c == ' '
    || c == '\U{85}'
    || c == '\U{A0}'
    || c == '\U{1680}'
    || ('\U{2000}' <= c <= '\U{200A}')
    || c == '\U{2028}'
    || c == '\U{2029}'
    || c == '\U{202F}'
    || c == '\U{205F}'
    || c == '\U{3000}'
  }

  /** The regular-expression class `\d`, restricted to ASCII digits. */
  predicate IsDigit(c: char)
  {
    '0' <= c <= '9'
  }

  /** A non-empty run of non-whitespace characters: one item of `s.split()`. */
  predicate IsWord(w: string)
  {
    |w| > 0 && forall i :: 0 <= i < |w| ==> !IsSpace(w[i])
  }

  /** Length of the longest whitespace-free prefix of `s`. */
  function TokenLen(s: string): (n: nat)
    ensures n <= |s|
    ensures forall i :: 0 <= i < n ==> !IsSpace(s[i])
    ensures n < |s| ==> IsSpace(s[n])
  {
    if |s| == 0 || IsSpace(s[0]) then 0 else 1 + TokenLen(s[1..])
  }

  /** `s.split()`: the maximal whitespace-free runs of `s`, left to right. */
  function Words(s: string): (ws: seq<string>)
    ensures forall i :: 0 <= i < |ws| ==> IsWord(ws[i])
    decreases |s|
  {
    if |s| == 0 then []
    else if IsSpace(s[0]) then Words(s[1..])
    else
      var n := TokenLen(s);
      [s[..n]] + Words(s[n..])
  }

  /** `sep.join(ws)` */
  function Join(ws: seq<string>, sep: string): string
  {
    if |ws| == 0 then ""
    else if |ws| == 1 then ws[0]
    else ws[0] + sep + Join(ws[1..], sep)
  }

  /** `" ".join(s.split())`: every whitespace run becomes one space and the
      ends are trimmed. */
  function Collapse(s: string): string
  {
    Join(Words(s), " ")
  }

  /** Text with no leading or trailing whitespace, whose only whitespace
      character is the plain space, never two in a row. */
  predicate SingleSpaced(t: string)
  {
    && (|t| > 0 ==> !IsSpace(t[0]) && !IsSpace(t[|t| - 1]))
    && forall i :: 0 <= i < |t| && IsSpace(t[i]) ==> t[i] == ' ' && i + 1 < |t| && !IsSpace(t[i + 1])
  }

  /** `s.startswith(p)` */
  predicate StartsWith(s: string, p: string)
  {
    |p| <= |s| && s[..|p|] == p
  }

  /** `s.endswith(p)` */
  predicate EndsWith(s: string, p: string)
  {
    |p| <= |s| && s[|s| - |p|..] == p
  }

  /** `s[:n]` with Python's slice semantics: a negative `n` counts from the end. */
  function PyPrefix(s: string, n: int): (p: string)
    ensures |p| <= |s| && p == s[..|p|]
    ensures n >= 0 ==> |p| == if n < |s| then n else |s|
    ensures n < 0 ==> |p| == if |s| + n > 0 then |s| + n else 0
  {
    if n >= 0 then
      if n < |s| then s[..n] else s
    else
      if |s| + n > 0 then s[..|s| + n] else ""
  }

  /** `s.rfind(c)`: the last index holding `c`, or -1 when there is none. */
  function LastIndexOf(s: string, c: char): (k: int)
    ensures -1 <= k < |s|
    ensures k == -1 <==> c !in s
    ensures k >= 0 ==> s[k] == c && forall j :: k < j < |s| ==> s[j] != c
  {
    if |s| == 0 then -1
    else if s[|s| - 1] == c then |s| - 1
    else LastIndexOf(s[..|s| - 1], c)
  }

  /** ASCII lower-casing, one character for one character. */
  function Lower(s: string): (t: string)
    ensures |t| == |s|
  {
    if |s| == 0 then ""
    else
      var c := s[0];
      [if 'A' <= c <= 'Z' then (c as int + 32) as char else c] + Lower(s[1..])
  }

  /** A string of ASCII digits only. */
  predicate IsDigitString(t: string)
  {
    forall i :: 0 <= i < |t| ==> IsDigit(t[i])
  }

  /** The value of a run of ASCII digits, read as a decimal numeral. */
  function DecimalValue(s: string): (n: nat)
    requires IsDigitString(s)
  {
    if |s| == 0 then 0 else 10 * DecimalValue(s[..|s| - 1]) + (s[|s| - 1] as int - '0' as int)
  }

  /** `str(n)`: the canonical decimal numeral of `n`, with a '-' before a
      negative number. The digits read back as the magnitude, and there is
      no leading zero except in "0" itself. */
  function IntToString(n: int): (s: string)
    ensures |s| > 0
    ensures n >= 0 ==> IsDigitString(s) && DecimalValue(s) == n
    ensures n < 0 ==> s[0] == '-' && IsDigitString(s[1..]) && DecimalValue(s[1..]) == -n
    ensures n >= 0 && s[0] == '0' ==> s == "0"
    ensures n < 0 ==> |s| >= 2 && s[1] != '0'
    decreases if n < 0 then 1 - n else n
  {
    if n < 0 then
      var t := IntToString(-n);
      assert ("-" + t)[1..] == t;
      "-" + t
    else if n < 10 then [('0' as int + n) as char]
    else
      var t := IntToString(n / 10);
      var d := [('0' as int + n % 10) as char];
      assert (t + d)[..|t + d| - 1] == t;
      t + d
  }

  lemma {:induction false} TokenLenOfWord(w: string, rest: string)
    requires IsWord(w)
    requires |rest| == 0 || IsSpace(rest[0])
    ensures TokenLen(w + rest) == |w|
    decreases |w|
  {
    assert (w + rest)[0] == w[0];
    assert (w + rest)[1..] == w[1..] + rest;
    if |w| > 1 {
      TokenLenOfWord(w[1..], rest);
    } else {
      assert w[1..] + rest == rest;
    }
  }

  /** A word followed by whitespace (or nothing) splits off as one word. */
  lemma WordsOfWordThen(w: string, rest: string)
    requires IsWord(w)
    requires |rest| == 0 || IsSpace(rest[0])
    ensures Words(w + rest) == [w] + Words(rest)
  {
    var s := w + rest;
    TokenLenOfWord(w, rest);
    assert s[0] == w[0];
    assert s[..|w|] == w;
    assert s[|w|..] == rest;
  }

  /** A leading space does not change the words. */
  lemma WordsOfSpaceThen(t: string)
    ensures Words(" " + t) == Words(t)
  {
    assert (" " + t)[1..] == t;
  }

  /** Joining words with single spaces and splitting again gives them back. */
  lemma {:induction false} WordsOfJoin(ws: seq<string>)
    requires forall i :: 0 <= i < |ws| ==> IsWord(ws[i])
    ensures Words(Join(ws, " ")) == ws
    decreases |ws|
  {
    if |ws| == 0 {
    } else if |ws| == 1 {
      WordsOfWordThen(ws[0], "");
      assert ws[0] + "" == ws[0];
    } else {
      var tail := Join(ws[1..], " ");
      WordsOfJoin(ws[1..]);
      WordsOfSpaceThen(tail);
      WordsOfWordThen(ws[0], " " + tail);
      assert Join(ws, " ") == ws[0] + (" " + tail);
      assert [ws[0]] + ws[1..] == ws;
    }
  }

  /** Collapsing keeps the words: `len(" ".join(t.split()).split()) == len(t.split())`. */
  lemma CollapseKeepsWords(s: string)
    ensures Words(Collapse(s)) == Words(s)
  {
    WordsOfJoin(Words(s));
  }

  /** Collapsing twice is collapsing once. */
  lemma CollapseIdempotent(s: string)
    ensures Collapse(Collapse(s)) == Collapse(s)
  {
    CollapseKeepsWords(s);
  }

  /** Words joined by single spaces form single-spaced text. */
  lemma {:induction false} JoinIsSingleSpaced(ws: seq<string>)
    requires forall i :: 0 <= i < |ws| ==> IsWord(ws[i])
    ensures SingleSpaced(Join(ws, " "))
    ensures |ws| > 0 ==> |Join(ws, " ")| > 0
    decreases |ws|
  {
    if |ws| >= 2 {
      var w := ws[0];
      var tail := Join(ws[1..], " ");
      JoinIsSingleSpaced(ws[1..]);
      var t := Join(ws, " ");
      assert t == w + " " + tail;
      assert |tail| > 0;
      forall i | 0 <= i < |t| && IsSpace(t[i])
        ensures t[i] == ' ' && i + 1 < |t| && !IsSpace(t[i + 1])
      {
        if i == |w| {
          assert t[i + 1] == tail[0];
        } else {
          assert t[i] == tail[i - |w| - 1];
          if i + 1 < |t| {
            assert t[i + 1] == tail[i - |w|];
          }
        }
      }
      assert t[0] == w[0];
      assert t[|t| - 1] == tail[|tail| - 1];
    }
  }

  /** `" ".join(s.split())` is single-spaced. */
  lemma CollapseIsSingleSpaced(s: string)
    ensures SingleSpaced(Collapse(s))
  {
    JoinIsSingleSpaced(Words(s));
  }

  /** `s.lstrip()` */
  function StripLeft(s: string): (t: string)
    ensures |t| <= |s| && t == s[|s| - |t|..]
    ensures |t| > 0 ==> !IsSpace(t[0])
    ensures forall i :: 0 <= i < |s| - |t| ==> IsSpace(s[i])
  {
    if |s| > 0 && IsSpace(s[0]) then
      var t := StripLeft(s[1..]);
      assert forall i :: 1 <= i < |s| ==> s[i] == s[1..][i - 1];
      t
    else s
  }

  /** `s.rstrip()` */
  function StripRight(s: string): (t: string)
    ensures |t| <= |s| && t == s[..|t|]
    ensures |t| > 0 ==> !IsSpace(t[|t| - 1])
    ensures forall i :: |t| <= i < |s| ==> IsSpace(s[i])
  {
    if |s| > 0 && IsSpace(s[|s| - 1]) then StripRight(s[..|s| - 1]) else s
  }

  /** `s.strip()` */
  function Strip(s: string): string
  {
    StripRight(StripLeft(s))
  }

  /** `re.sub(r"\s+", " ", s)`: every maximal whitespace run becomes one
      space; the ends are kept. */
  function SubRuns(s: string): string
    decreases |s|
  {
    if |s| == 0 then ""
    else if IsSpace(s[0]) then
      " " + SubRuns(StripLeft(s))
    else
      var n := TokenLen(s);
      s[..n] + SubRuns(s[n..])
  }

  /** Leading whitespace does not change the words. */
  lemma {:induction false} WordsStripLeft(s: string)
    ensures Words(StripLeft(s)) == Words(s)
    decreases |s|
  {
    if |s| > 0 && IsSpace(s[0]) {
      WordsStripLeft(s[1..]);
    }
  }

  /** Joining a first word in front of a non-empty list. */
  lemma JoinCons(w: string, ws: seq<string>, sep: string)
    requires |ws| > 0
    ensures Join([w] + ws, sep) == w + sep + Join(ws, sep)
  {
    assert ([w] + ws)[1..] == ws;
  }

  /** `SubRuns` on text that starts with a word. */
  lemma SubRunsWord(t: string)
    requires |t| > 0 && !IsSpace(t[0])
    ensures SubRuns(t) == t[..TokenLen(t)] + SubRuns(t[TokenLen(t)..])
    ensures Words(t) == [t[..TokenLen(t)]] + Words(t[TokenLen(t)..])
  {
  }

  /** `SubRuns` on text that starts with whitespace. */
  lemma SubRunsSpace(r: string)
    requires |r| > 0 && IsSpace(r[0])
    ensures SubRuns(r) == " " + SubRuns(StripLeft(r))
  {
  }

  /** For text that does not start with whitespace, substituting the runs
      gives the collapsed text plus one space if the text ends in
      whitespace. */
  lemma {:induction false} SubRunsShape(t: string)
    requires |t| == 0 || !IsSpace(t[0])
    ensures SubRuns(t) == Collapse(t) + (if |t| > 0 && IsSpace(t[|t| - 1]) then " " else "")
    decreases |t|
  {
    if |t| > 0 {
      var w, rest := SplitWord(t);
      if |rest| == 0 {
        ShapeOneWord(t, w, rest);
      } else {
        var u := StripLeft(rest);
        WordsStripLeft(rest);
        SubRunsSpace(rest);
        if |u| == 0 {
          ShapeTrailingSpace(t, w, rest);
        } else {
          SubRunsShape(u);
          ShapeMoreWords(t, w, rest, u);
        }
      }
    }
  }

  /** Text that starts with a word: the word, and what follows it. */
  lemma SplitWord(t: string) returns (w: string, rest: string)
    requires |t| > 0 && !IsSpace(t[0])
    ensures |w| > 0 && t == w + rest
    ensures |rest| == 0 || IsSpace(rest[0])
    ensures Words(t) == [w] + Words(rest)
    ensures SubRuns(t) == w + SubRuns(rest)
  {
    SubRunsWord(t);
    w, rest := t[..TokenLen(t)], t[TokenLen(t)..];
  }

  lemma ShapeOneWord(t: string, w: string, rest: string)
    requires |w| > 0 && t == w + rest && |rest| == 0
    requires Words(t) == [w] + Words(rest)
    requires SubRuns(t) == w + SubRuns(rest)
    ensures SubRuns(t) == Collapse(t) + (if IsSpace(t[|t| - 1]) then " " else "")
  {
    assert SubRuns(rest) == "" && Words(rest) == [];
    assert Words(t) == [w];
    assert IsWord(Words(t)[0]);
    assert t[|t| - 1] == w[|w| - 1];
    assert Collapse(t) == w;
  }

  lemma ShapeTrailingSpace(t: string, w: string, rest: string)
    requires |rest| > 0 && t == w + rest
    requires |StripLeft(rest)| == 0
    requires Words(t) == [w] + Words(rest)
    requires Words(StripLeft(rest)) == Words(rest)
    requires SubRuns(t) == w + SubRuns(rest)
    requires SubRuns(rest) == " " + SubRuns(StripLeft(rest))
    ensures SubRuns(t) == Collapse(t) + (if IsSpace(t[|t| - 1]) then " " else "")
  {
    var u := StripLeft(rest);
    assert u == [];
    assert SubRuns(t) == w + " ";
    assert Words(rest) == [];
    assert Words(t) == [w];
    assert Collapse(t) == w;
    assert IsSpace(rest[|rest| - 1]);
    assert t[|t| - 1] == rest[|rest| - 1];
  }

  lemma ShapeMoreWords(t: string, w: string, rest: string, u: string)
    requires |w| > 0 && t == w + rest && |rest| > 0
    requires u == StripLeft(rest) && |u| > 0
    requires Words(t) == [w] + Words(rest)
    requires Words(u) == Words(rest)
    requires SubRuns(t) == w + SubRuns(rest)
    requires SubRuns(rest) == " " + SubRuns(u)
    requires SubRuns(u) == Collapse(u) + (if IsSpace(u[|u| - 1]) then " " else "")
    ensures SubRuns(t) == Collapse(t) + (if IsSpace(t[|t| - 1]) then " " else "")
  {
    WordsNonEmpty(u);
    CollapseCons(t, w, u);
    LastOfSuffix(t, w, rest, u);
    var tail := if IsSpace(u[|u| - 1]) then " " else "";
    SeqAssoc(w, Collapse(u), tail);
  }

  lemma WordsNonEmpty(u: string)
    requires |u| > 0 && !IsSpace(u[0])
    ensures Words(u) != []
  {
  }

  lemma CollapseCons(t: string, w: string, u: string)
    requires Words(t) == [w] + Words(u) && Words(u) != []
    ensures Collapse(t) == w + " " + Collapse(u)
  {
    JoinCons(w, Words(u), " ");
  }

  lemma SeqAssoc(w: string, c: string, tail: string)
    ensures w + (" " + (c + tail)) == (w + " " + c) + tail
  {
  }

  /** A suffix of a suffix ends where the text ends. */
  lemma LastOfSuffix(t: string, w: string, rest: string, u: string)
    requires t == w + rest
    requires |u| > 0 && |u| <= |rest| && u == rest[|rest| - |u|..]
    ensures t[|t| - 1] == u[|u| - 1]
  {
    assert t[|t| - 1] == rest[|rest| - 1];
  }

  /** Collapsed text keeps no whitespace at either end. */
  lemma CollapseEnds(s: string)
    ensures |Collapse(s)| > 0 ==> !IsSpace(Collapse(s)[0]) && !IsSpace(Collapse(s)[|Collapse(s)| - 1])
    ensures |Collapse(s)| == 0 <==> Words(s) == []
  {
    CollapseIsSingleSpaced(s);
    CollapseKeepsWords(s);
  }

  /** Stripping the substituted text of a string that starts with a word
      (or is empty) leaves its collapsed form. */
  lemma StripShape(u: string)
    requires |u| == 0 || !IsSpace(u[0])
    ensures Strip(SubRuns(u)) == Collapse(u)
  {
    SubRunsShape(u);
    CollapseEnds(u);
    if |u| > 0 {
      SubRunsWord(u);
      assert Words(u) != [];
    }
    StripPadded(Collapse(u), if |u| > 0 && IsSpace(u[|u| - 1]) then " " else "");
  }

  /** Text with no whitespace at its ends, padded with at most one space,
      strips back to itself. */
  lemma StripPadded(c: string, tail: string)
    requires |c| > 0 ==> !IsSpace(c[0]) && !IsSpace(c[|c| - 1])
    requires tail == "" || (tail == " " && |c| > 0)
    ensures Strip(c + tail) == c
  {
    var x := c + tail;
    if |c| > 0 {
      assert x[0] == c[0];
    }
    assert StripLeft(x) == x;
    if tail == " " {
      assert x[..|x| - 1] == c;
    } else {
      assert x == c;
    }
  }

  /** `re.sub(r"\s+", " ", s).strip()` is `" ".join(s.split())`. */
  lemma SubRunsStripIsCollapse(s: string)
    ensures Strip(SubRuns(s)) == Collapse(s)
  {
    var u := StripLeft(s);
    WordsStripLeft(s);
    StripShape(u);
    if |s| > 0 && IsSpace(s[0]) {
      SubRunsSpace(s);
      StripLeftSpace(SubRuns(u));
    } else {
      assert u == s;
    }
  }

  lemma StripLeftSpace(x: string)
    ensures StripLeft(" " + x) == StripLeft(x)
  {
    assert (" " + x)[1..] == x;
  }
}

=== FILE: wrappers.dfy ===
/** Optional and fallible values, used wherever the analyser either has no
    value (Python's None) or raises an exception. */
module Wrappers {

  datatype Option<+T> = None | Some(value: T)

  datatype Result<+T> = Ok(value: T) | Err(message: string)
}
